=== FILE: README.md ===
# MetricsLib core in Dafny

This project models the core of MetricsLib, a C++ library for process metrics.

**The metrics.** The library keeps a set of metrics:
- a named 64-bit counter (`IncrementMetric`);
- a request-rate counter (`HTTPIncomeMetric`);
- a stopwatch (`CodeTimeMetric`);
- a CPU-usage gauge over `/proc/stat` samples (`CPUUsageMetric` with `CPUTimes`);
- three cardinality metrics that count observations per key and list the most frequent ones (`CardinalityMetricValue`, `CardinalityMetricAny`, `CardinalityMetricType`);
- the type-erased box `MyAny` those keys are made of.

**The registry.** A `MetricsManager` owns the metrics. It hands them out by index with a type check, and it logs them:
- Logging one metric means Evaluate, write the line `timestamp name: value`, then Reset.
- Logging can target one metric by index or every metric carrying a capability tag. The tags form the `MetricsTags` is-a lattice.

**The writer.** Lines go to an `AsyncWriter`:
- Producers enqueue lines.
- One consumer thread appends them to a file.
- `Stop` drains the queue.

**How it is modelled.** Every entity is an immutable datatype and every operation a pure function.

The outside world becomes explicit inputs:
- clock reads;
- CPU samples;
- the result of opening the log file and of launching the consumer thread;
- the process-wide name counters.

Unsigned 64-bit arithmetic wraps explicitly modulo 2^64 (module `UInt64`). Decimal rendering (`std::to_string`, `std::setw`/`setfill`) is modelled together with its parse-back (module `Text`). `std::fixed << std::setprecision(2)` is modelled on exact reals, rounded half to even (module `FixedPoint`).

**Threads.** The writer's consumer thread is an explicit `ConsumerStep`. `AsyncWriter.Run` applies any interleaving of start, write, consume and stop operations, and `AsyncWriter.RunKeepsLines` proves that no accepted line is lost, duplicated or reordered in any of them.

**Tags.** `HTTPIncomeMetric` inherits `ServerMetricTag`. `CPUUsageMetric` and `CodeTimeMetric` only declare `using tag = …`, and the `Metrics::IMetric` base they derive from is not part of this model. So the model gives each kind an explicit tag, chosen to match the manager's tests:
- HTTP → Server
- CPU → Computer
- code timer → Algo
- counter and the three cardinality metrics → only the root tag

**Where the library's documented behaviour and its code disagree, the model follows the code:**
- The CPU percentage is not clamped. `CpuUsageMetric.IdleRegressionExceeds100` shows 200% when idle time regresses.
- The manager's constructor ignores a failed `Start`.

## Model

| member | source | states |
|---|---|---|
| UInt64.Sub | src/IMetrics/HTTPIncomeMetric.cpp:25 | unsigned subtraction is the difference when it is non-negative and the difference plus 2^64 otherwise |
| UInt64.SubAddCancel | src/IMetrics/HTTPIncomeMetric.cpp:24-27 | subtracting the old counter from a counter advanced by k gives k modulo 2^64, whatever wrapped |
| UInt64.Add | src/IMetrics/IncrementMetric.cpp:30 | unsigned addition is the sum below 2^64 and the sum minus 2^64 otherwise |
| Text.ParseNatToString | src/IMetrics/IncrementMetric.cpp:19-21 | `std::to_string` of an unsigned value reads back as that value |
| Text.NatToString | src/IMetrics/IncrementMetric.cpp:19-21 | `std::to_string` of an unsigned value: at least one digit, digits only, one digit exactly for values below 10, and no leading zero except for 0 itself |
| Text.ParseIntToString | src/IMetrics/CardinalityMetricAny.cpp:21 | `std::to_string` of a signed value (n_top, which may be negative) reads back as that value |
| Text.NatToStringInjective | src/IMetrics/IncrementMetric.cpp:7 | two numbers print the same exactly when they are equal |
| Text.PadLeftValue | src/MultiThreadWriter/WriterUtils.h:50 | zero-padding to a width keeps the value the digits denote |
| Text.PadLeftWidth | src/MultiThreadWriter/WriterUtils.h:50 | a value below 10^w padded to width w has exactly w digits |
| FixedPoint.Fixed2 | src/IMetrics/HTTPIncomeMetric.cpp:19 | `std::fixed << std::setprecision(2)`: no contract of its own; specified by `FixedPoint.Fixed2RoundTrip` and `FixedPoint.Fixed2OfInteger` |
| FixedPoint.Fixed2RoundTrip | src/IMetrics/HTTPIncomeMetric.cpp:17-21 | a two-decimal rendering has the shape `[-]digits.dd` and denotes the value to within half a hundredth |
| FixedPoint.Fixed2OfInteger | src/IMetrics/HTTPIncomeMetric.cpp:19 | an integral value renders as its decimal digits followed by ".00" |
| DefaultNames.Next | src/IMetrics/IncrementMetric.cpp:5-8 | one name request pre-increments the 64-bit counter and the name lies between the prefix and the suffix |
| DefaultNames.IssueNumbers | src/IMetrics/IncrementMetric.cpp:5-8 | before the counter wraps, the i-th of k successive names embeds the counter's value plus i + 1 |
| DefaultNames.IssuedNamesDistinct | src/IMetrics/CodeTimeMetric.cpp:9-12 | fewer than 2^64 successive default names are pairwise distinct |
| IncrementMetric.CreateDefaultName | src/IMetrics/IncrementMetric.cpp:5-8 | the name is `"IncrementMetric N"`, quotes included, with N the counter after its increment |
| IncrementMetric.New | src/IMetrics/IncrementMetric.cpp:10-13 | a new counter has the given name and start value |
| IncrementMetric.Name | src/IMetrics/IncrementMetric.cpp:15-17 | the name is the one given at construction |
| IncrementMetric.ValueString | src/IMetrics/IncrementMetric.cpp:19-21 | the value renders as decimal digits that parse back to the counter |
| IncrementMetric.Evaluate | src/IMetrics/IncrementMetric.cpp:23 | Evaluate leaves the counter unchanged |
| IncrementMetric.Reset | src/IMetrics/IncrementMetric.cpp:25-27 | Reset zeroes the counter and keeps the name |
| IncrementMetric.PreIncrement | src/IMetrics/IncrementMetric.cpp:29-33 | `++` adds one, wraps from 2^64 - 1 to 0 and keeps the name |
| IncrementMetric.PostIncrement | src/IMetrics/IncrementMetric.cpp:35-37 | `m++` is `++m`: the counter goes up by one modulo 2^64 and the name is kept |
| IncrementMetric.IncrementTimesAdds | src/IMetrics/IncrementMetric.cpp:29-33 | k increments add k modulo 2^64 and keep the name |
| IncrementMetric.FreshCounterCounts | src/IMetrics/IncrementMetric.cpp:10-13 | a new counter shows its start value, and after k increments without overflow it holds start + k |
| IncrementMetric.ResetAfterEvaluate | src/IMetrics/IncrementMetric.cpp:23-27 | a logged counter ends as a fresh counter with its name, and Reset is idempotent |
| HttpIncomeMetric.New | src/IMetrics/HTTPIncomeMetric.cpp:7-11 | a new rate counter starts with the baseline at the start value and 0 published |
| HttpIncomeMetric.Name | src/IMetrics/HTTPIncomeMetric.cpp:13-15 | the name is the fixed quoted text `"HTTPS requests RPS"` |
| HttpIncomeMetric.ValueString | src/IMetrics/HTTPIncomeMetric.cpp:17-21 | the published value renders in the two-decimal shape, as its decimal digits followed by ".00" |
| HttpIncomeMetric.Evaluate | src/IMetrics/HTTPIncomeMetric.cpp:23-28 | Evaluate publishes the counter minus the baseline, wrapping when the counter is below the baseline, and moves the baseline to the counter |
| HttpIncomeMetric.Reset | src/IMetrics/HTTPIncomeMetric.cpp:30-34 | Reset zeroes the counter, the published value and the baseline |
| HttpIncomeMetric.Increment | src/IMetrics/HTTPIncomeMetric.cpp:36-44 | an increment bumps the counter modulo 2^64 and changes nothing visible |
| HttpIncomeMetric.IncrementTimesCounter | src/IMetrics/HTTPIncomeMetric.cpp:36-40 | k increments add k modulo 2^64 to the counter and leave the baseline and the published value alone |
| HttpIncomeMetric.EvaluatePublishesIncrements | src/IMetrics/HTTPIncomeMetric.cpp:23-28 | from an aligned state, Evaluate after k increments publishes k modulo 2^64, which is exactly k below 2^64 |
| HttpIncomeMetric.AlignedStates | src/IMetrics/HTTPIncomeMetric.cpp:7-34 | construction, Evaluate and Reset all leave the counter on the baseline |
| HttpIncomeMetric.EvaluateTwice | src/IMetrics/HTTPIncomeMetric.cpp:23-28 | a second Evaluate with no increment in between publishes 0 and renders "0.00" |
| HttpIncomeMetric.ValueStringOfCount | src/IMetrics/HTTPIncomeMetric.cpp:17-21 | a published count renders as its digits plus ".00"; a fresh or reset metric renders "0.00" |
| CodeTimeMetric.CreateDefaultName | src/IMetrics/CodeTimeMetric.cpp:9-12 | the name is `"Algorithm N"`, quotes included, with N the counter after its increment |
| CodeTimeMetric.New | src/IMetrics/CodeTimeMetric.cpp:14-19 | a new timer has the name, is idle, and spans the gap between its two clock reads |
| CodeTimeMetric.Name | src/IMetrics/CodeTimeMetric.cpp:21-23 | the name is the one given at construction |
| CodeTimeMetric.Evaluate | src/IMetrics/CodeTimeMetric.cpp:43 | Evaluate leaves the timer unchanged |
| CodeTimeMetric.ValueString | src/IMetrics/CodeTimeMetric.cpp:25-41 | the unit shown is ns, μs, ms or s exactly when the timer's duration is below 10^3, below 10^6, below 10^9, or from 10^9 on |
| CodeTimeMetric.RenderDuration | src/IMetrics/CodeTimeMetric.cpp:29-38 | the rendering of a nanosecond count: no contract of its own; specified by `CodeTimeMetric.UnitSelection` (the unit per range) and `CodeTimeMetric.UnitValue` (the number shown) |
| CodeTimeMetric.Reset | src/IMetrics/CodeTimeMetric.cpp:45-50 | Reset takes start and finish from two successive clock reads and leaves the timer idle |
| CodeTimeMetric.Start | src/IMetrics/CodeTimeMetric.cpp:52-57 | Start, running or not, takes start and finish from two clock reads and marks the timer running |
| CodeTimeMetric.Stop | src/IMetrics/CodeTimeMetric.cpp:59-65 | stopping a running timer sets the finish; stopping an idle one changes nothing |
| CodeTimeMetric.StartStopMeasures | src/IMetrics/CodeTimeMetric.cpp:52-65 | Start then Stop measures from the first read of Start to the read of Stop |
| CodeTimeMetric.StopStartIdempotence | src/IMetrics/CodeTimeMetric.cpp:52-65 | a second Stop changes neither the timer nor its rendering; a second Start is a restart |
| CodeTimeMetric.ResetRendersGap | src/IMetrics/CodeTimeMetric.cpp:45-50 | a reset timer shows "0 ns" when its two reads agree, and the gap in ns when they are less than 1000 ns apart |
| CodeTimeMetric.UnitSelection | src/IMetrics/CodeTimeMetric.cpp:29-38 | the suffix is ns, μs, ms or s exactly on the ranges below 10^3, below 10^6, below 10^9 and from 10^9 on |
| CodeTimeMetric.UnitValue | src/IMetrics/CodeTimeMetric.cpp:29-38 | nanoseconds read back exactly; in the larger units the number is the duration divided by 10^3, 10^6 or 10^9, to within half a hundredth |
| CpuUsageMetric.Total | src/IMetrics/CPUUsageMetric.h:21-23 | the total is the exact sum of the ten counters modulo 2^64 |
| CpuUsageMetric.AddAllWraps | src/IMetrics/CPUUsageMetric.h:21-23 | adding counters one at a time in 64-bit arithmetic is the exact sum reduced modulo 2^64 |
| CpuUsageMetric.ZeroTimesTotal | src/IMetrics/CPUUsageMetric.h:9-23 | a default `CPUTimes` totals zero |
| CpuUsageMetric.TenthsTotal | src/IMetrics/CPUUsageMetric.h:21-23 | ten counters of floor((2^64 - 1) / 10) add up without wrapping |
| CpuUsageMetric.IdleWithinTotal | src/IMetrics/CPUUsageMetric.cpp:55-59 | when the sum does not overflow, idle plus iowait is at most the total |
| CpuUsageMetric.IdleExceedsWrappedTotal | src/IMetrics/CPUUsageMetric.h:21-23 | a sum of exactly 2^64 wraps the total to 0 while the idle time is 1 |
| CpuUsageMetric.IdleDeltaWithinTotalDelta | src/IMetrics/CPUUsageMetric.cpp:55-62 | between field-wise non-decreasing samples the idle delta is at most the total delta |
| CpuUsageMetric.New | src/IMetrics/CPUUsageMetric.cpp:16-26 | the constructor shows 0 and keeps the initial sample, or zero counters when sampling fails |
| CpuUsageMetric.Name | src/IMetrics/CPUUsageMetric.cpp:28-30 | the name is the fixed quoted text `"CPU Usage"` |
| CpuUsageMetric.ValueString | src/IMetrics/CPUUsageMetric.cpp:32-37 | the value is a two-decimal number followed by `%`, and that number reads back as `cpu_usage_percent_` within half a hundredth |
| CpuUsageMetric.Evaluate | src/IMetrics/CPUUsageMetric.cpp:39-72 | a failed sample shows -1 and keeps the baseline; a baseline state shows 0; otherwise the busy share of the total delta times 100 is shown; any successful sample becomes the new baseline |
| CpuUsageMetric.BusyPercent | src/IMetrics/CPUUsageMetric.cpp:61-68 | the busy share from the 64-bit deltas, 0 when no time passed: no contract of its own; specified by `CpuUsageMetric.BusyPercentBounded` and `CpuUsageMetric.IdleRegressionExceeds100` |
| CpuUsageMetric.Reset | src/IMetrics/CPUUsageMetric.cpp:74-79 | Reset shows 0, sets all ten counters to zero (so their total is 0) and zeroes the clock reading |
| CpuUsageMetric.ResetThenEvaluate | src/IMetrics/CPUUsageMetric.cpp:48-53 | after Reset the next successful Evaluate is a baseline: it shows 0 and stores the sample |
| CpuUsageMetric.BusyPercentBounded | src/IMetrics/CPUUsageMetric.cpp:61-68 | with monotone samples whose sum does not overflow, the busy share lies in [0, 100] |
| CpuUsageMetric.EvaluateBounded | src/IMetrics/CPUUsageMetric.cpp:39-72 | every value a successful Evaluate over monotone samples shows is in [0, 100] |
| CpuUsageMetric.IdleRegressionExceeds100 | src/IMetrics/CPUUsageMetric.cpp:61-68 | when idle time goes backwards the unclamped share is 200 |
| MyAny.Default | src/IMetrics/MyAny.h:50 | a default box is empty and reports `typeid(void)` |
| MyAny.Box | src/IMetrics/MyAny.h:60-62 | a box made from a value holds a value of that value's type, and casting it to that type yields the value |
| MyAny.Type | src/IMetrics/MyAny.h:85-87 | the type is the held one, or `void` for an empty box |
| MyAny.HasValue | src/IMetrics/MyAny.h:81-83 | `has_value`: no contract of its own; `MyAny.Default`, `MyAny.Box` and `MyAny.Reset` state its value after each constructor and `reset` |
| MyAny.Equals | src/IMetrics/MyAny.h:89-102 | `operator==`: no contract of its own; specified by `MyAny.EqualsIsIdentity` and `MyAny.EqualsRules` |
| MyAny.Reset | src/IMetrics/MyAny.h:77-79 | `reset` empties the box |
| MyAny.EqualsIsIdentity | src/IMetrics/MyAny.h:89-102 | `operator==` holds exactly when the boxes hold the same type and value (both empty counts), so it is symmetric and reflexive |
| MyAny.EqualsRules | src/IMetrics/MyAny.h:89-102 | two empties are equal, empty and full are not, different types are not, and the same type compares values |
| MyAny.CopyAssign | src/IMetrics/MyAny.h:64-70 | copy assignment, self-assignment included, leaves both boxes holding the source's contents |
| MyAny.MoveAssign | src/IMetrics/MyAny.h:72-75 | move assignment from a distinct box hands the contents over and leaves the source empty |
| MyAny.Cast | src/IMetrics/MyAny.h:117-124 | `MyAnyCast<T>` succeeds with the held value exactly when the box is full and holds type T, otherwise `bad_any_cast` |
| MyAny.AssignOtherType | src/IMetrics/MyAny.h:64-70 | after assigning a box of another type, casts to the new type succeed and casts to the old type fail |
| Cardinality.New | src/IMetrics/CardinalityMetricAny.cpp:11 | a new store has no keys and the given n_top |
| Cardinality.Observe | src/IMetrics/CardinalityMetricAny.h:20-31 | a new key is recorded with the count, a known key has the count added, and no other key changes |
| Cardinality.ObserveUnique | src/IMetrics/CardinalityMetricAny.h:25-30 | observing a known key keeps the number of distinct keys; a new key adds one |
| Cardinality.Reset | src/IMetrics/CardinalityMetricAny.cpp:43-46 | Reset forgets every key and keeps n_top |
| Cardinality.Evaluate | src/IMetrics/CardinalityMetricAny.cpp:41 | Evaluate leaves the store unchanged |
| Cardinality.OrderCoversKeys | src/IMetrics/CardinalityMetricAny.cpp:23-26 | the iteration lists as many entries as the map holds keys |
| Cardinality.Entries | src/IMetrics/CardinalityMetricAny.cpp:23-26 | each copied entry is a key with its count, in iteration order |
| Cardinality.Insert | src/IMetrics/CardinalityMetricAny.cpp:28-31 | inserting into a sequence sorted by descending count keeps it sorted and adds exactly that entry |
| Cardinality.SortByCount | src/IMetrics/CardinalityMetricAny.cpp:28-31 | the sort yields a permutation of the entries ordered by descending count |
| Cardinality.Top | src/IMetrics/CardinalityMetricAny.cpp:28-36 | the entries a rendering lists: no contract of its own; specified by `Cardinality.TopIsTopN` |
| Cardinality.TopIsTopN | src/IMetrics/CardinalityMetricAny.cpp:28-36 | the listing has max(0, min(n_top, size)) entries, sorted, each a distinct key with its count, and no key left out has a larger count than a listed one |
| Cardinality.HeaderReports | src/IMetrics/CardinalityMetricAny.cpp:20-21 | the first line reports the number of distinct keys and the second line starts with n_top verbatim |
| Cardinality.Header | src/IMetrics/CardinalityMetricAny.cpp:20-21 | the two header lines: no contract of its own; specified by `Cardinality.HeaderReports` and `Cardinality.ResetHeader` |
| Cardinality.ResetHeader | src/IMetrics/CardinalityMetricAny.cpp:43-46 | after Reset the header reports 0 elements and nothing is listed |
| CardinalityMetricAny.Name | src/IMetrics/CardinalityMetricAny.cpp:13-15 | the name is `"Cardinality"` |
| CardinalityMetricAny.NewDefault | src/IMetrics/CardinalityMetricAny.h:14 | the default constructor lists the top five and starts empty |
| CardinalityMetricAny.Observe | src/IMetrics/CardinalityMetricAny.h:20-31 | a known box has the count added, a new one is recorded with the count, and the number of distinct keys grows exactly for a new box |
| CardinalityMetricAny.TypeNames | src/IMetrics/CardinalityMetricAny.cpp:34-36 | the listing is empty exactly when no entry is listed, and otherwise starts with the first entry's `type().name()` and a space |
| CardinalityMetricAny.ValueString | src/IMetrics/CardinalityMetricAny.cpp:17-39 | the rendering starts with the header |
| CardinalityMetricAny.KeyIdentity | src/IMetrics/CardinalityMetricAny.h:20-31 | the same type and value merge into one key whose counts add up; different types stay separate keys |
| CardinalityMetricAny.ResetListsNothing | src/IMetrics/CardinalityMetricAny.cpp:43-46 | after Reset the rendering is the header alone |
| CardinalityMetricType.Name | src/IMetrics/CardinalityMetricType.cpp:14-16 | the name is `"CardinalityType"` |
| CardinalityMetricType.TypeNames | src/IMetrics/CardinalityMetricType.cpp:35-37 | the listing is empty exactly when no entry is listed, and otherwise starts with the first entry's demangled type name and a space |
| CardinalityMetricType.ValueString | src/IMetrics/CardinalityMetricType.cpp:18-40 | the rendering starts with the header |
| CardinalityMetricType.ResetReportsZero | src/IMetrics/CardinalityMetricType.cpp:44-47 | after Reset it reports zero unique elements and the rendering is the header alone |
| CardinalityMetricValue.Name | src/IMetrics/CardinalityMetricValue.h:55-57 | the name is `"CardinalityValue"` |
| CardinalityMetricValue.NewDefault | src/IMetrics/CardinalityMetricValue.h:53 | the default constructor lists the top five and starts empty |
| CardinalityMetricValue.Observe | src/IMetrics/CardinalityMetricValue.h:96-107 | the key is the variant alternative together with the value, counted like any store key |
| CardinalityMetricValue.ValueString | src/IMetrics/CardinalityMetricValue.h:59-87 | the rendering starts with the header |
| CardinalityMetricValue.Describe | src/IMetrics/CardinalityMetricValue.h:77-80 | one entry as `type value (quantity: n)`: no contract of its own; it is the unit `CardinalityMetricValue.JoinDescribed` joins |
| CardinalityMetricValue.JoinDescribed | src/IMetrics/CardinalityMetricValue.h:76-84 | the entries joined by ", ": no contract of its own; specified by `CardinalityMetricValue.JoinedEmptyIff` |
| CardinalityMetricValue.JoinedEmptyIff | src/IMetrics/CardinalityMetricValue.h:76-84 | the `, `-separated listing is empty exactly when no entry is listed |
| CardinalityMetricValue.RenderStable | src/IMetrics/CardinalityMetricValue.h:89 | Evaluate does not change the rendering, and with no keys the rendering is the header alone |
| MetricTags.Parent | src/IMetrics/MetricsTags.h:6-10 | each specific tag derives directly from the root |
| MetricTags.DefaultIsRoot | src/IMetrics/MetricsTags.h:4-10 | every tag is-a the root, and the root is-a only itself |
| MetricTags.SpecificTagsUnrelated | src/IMetrics/MetricsTags.h:6-10 | among Algo, Computer and Server, is-a holds only between a tag and itself |
| MetricTags.IsAOrder | src/IMetrics/MetricsTags.h:4-10 | is-a is reflexive, antisymmetric and transitive |
| Metrics.Evaluate | src/MetricsManager/MetricsManager.h:90 | Evaluate keeps each metric's kind, name and well-formedness, and changes only the CPU and HTTP metrics |
| Metrics.Reset | src/MetricsManager/MetricsManager.h:92 | Reset keeps each metric's kind and name |
| Metrics.ResetForgets | src/MetricsManager/MetricsManager.h:89-93 | the state a logging step leaves does not depend on the Evaluate before it, and resetting twice is resetting once |
| Metrics.ResetRendersZero | src/MetricsManager/MetricsManager.h:89-93 | after Reset a counter shows "0", the rate "0.00", the CPU gauge "0.00%", and the timer "0 ns" when its two clock reads agree |
| Metrics.ResetRendersEmptyHeader | src/IMetrics/CardinalityMetricAny.cpp:43-46 | after Reset every cardinality metric shows 0 elements, its n_top, and an empty listing |
| Metrics.TagSelection | src/MetricsManager/MetricsManager.h:83 | the root tag selects every metric; Server, Computer and Algo select only the HTTP, CPU and timer metrics |
| MetricsManager.LogDefaultName | src/MetricsManager/MetricsManager.h:19-22 | the default file name is `metricsN.log` with N the counter after its increment |
| MetricsManager.New | src/MetricsManager/MetricsManager.h:25-28 | the registry starts with no metrics, and its writer runs exactly when opening the file and launching the thread both succeed |
| MetricsManager.Close | src/MetricsManager/MetricsManager.h:30-32 | the destructor stops the writer, and every queued line ends up in the file |
| MetricsManager.CreateMetric | src/MetricsManager/MetricsManager.h:41-46 | the metric is appended and its index returned; the writer is untouched |
| MetricsManager.GetMetric | src/MetricsManager/MetricsManager.h:49-70 | out-of-range exactly when the index is past the end; success with the stored metric exactly when `dynamic_cast` to the requested class succeeds (the metric's own class, `IMetric`, or a tag it carries); otherwise a type mismatch naming the request and the actual class |
| MetricsManager.GetMetricTargets | src/MetricsManager/MetricsManager.h:55-66 | at a valid index, the metric's own class, `IMetric` and the root tag always succeed, a specific tag succeeds exactly when the metric carries it, and a `CardinalityMetricValue` over other variant alternatives fails with a type mismatch |
| MetricsManager.LogAt | src/MetricsManager/MetricsManager.h:107-109 | the metric is reset even when the line is refused; an accepting writer queues the line of the evaluated metric, and any other writer is left alone |
| MetricsManager.Log | src/MetricsManager/MetricsManager.h:96-110 | an index past the end fails with out-of-range and nothing changes; otherwise one logging step runs |
| MetricsManager.Filter | src/MetricsManager/MetricsManager.h:78-87 | the snapshot holds exactly the indices of the metrics carrying the tag, ascending |
| MetricsManager.LogEach | src/MetricsManager/MetricsManager.h:89-93 | the logging loop keeps the registry well-formed and its size; the metrics it leaves are given by `MetricsManager.LogEachMetrics`, the lines it queues by `MetricsManager.LogEachWriter` and `MetricsManager.LogEachRefused` |
| MetricsManager.LogTagged | src/MetricsManager/MetricsManager.h:72-94 | `Log<Tag>()` keeps the registry well-formed and its size; its full effect is given by `MetricsManager.LogTaggedSpec` |
| MetricsManager.LogEachMetrics | src/MetricsManager/MetricsManager.h:89-93 | a pass over distinct indices resets exactly those metrics and leaves the others as they were |
| MetricsManager.LogEachRefused | src/MetricsManager/MetricsManager.h:89-93 | a writer that refuses lines is left untouched by a whole pass |
| MetricsManager.LogEachWriter | src/MetricsManager/MetricsManager.h:89-93 | with an accepting writer a pass queues one line per index, in order, each rendered from the metric's state before the pass |
| MetricsManager.LogTaggedSpec | src/MetricsManager/MetricsManager.h:72-94 | `Log<Tag>()` resets every tagged metric, leaves every other metric untouched, and an accepting writer receives one line per tagged metric in insertion order |
| MetricsManager.FilterAll | src/MetricsManager/MetricsManager.h:72-87 | the default tag selects every index, in insertion order |
| MetricsManager.EmptyPass | src/MetricsManager/MetricsManager.h:74-94 | a pass over an empty registry changes nothing |
| AsyncWriter.New | src/MultiThreadWriter/Writer.cpp:6-10 | a new writer is not running and holds no lines |
| AsyncWriter.IsRunning | src/MultiThreadWriter/Writer.cpp:76-78 | the running flag: no contract of its own; `AsyncWriter.Start` and `AsyncWriter.Stop` state its value after each |
| AsyncWriter.Start | src/MultiThreadWriter/Writer.cpp:16-41 | Start returns true exactly when the writer ends up running, which is when it was already running or both the open and the thread launch succeeded; the lines are untouched |
| AsyncWriter.Write | src/MultiThreadWriter/Writer.cpp:62-74 | a line is queued and true returned exactly when the writer runs and no stop was requested; otherwise nothing changes |
| AsyncWriter.ConsumerStep | src/MultiThreadWriter/Writer.cpp:88-100 | a consumer step moves the oldest queued line to the file and loses nothing |
| AsyncWriter.Stop | src/MultiThreadWriter/Writer.cpp:43-60 | Stop leaves the writer stopped with an empty queue and the file extended by the queued lines in order |
| AsyncWriter.StopIdempotent | src/MultiThreadWriter/Writer.cpp:12-14 | the destructor's Stop after an explicit Stop changes nothing |
| AsyncWriter.RestartAfterStop | src/MultiThreadWriter/Writer.cpp:62-65 | a stopped writer refuses lines, and a restart that opens the file accepts them again |
| AsyncWriter.Run | src/MultiThreadWriter/Writer.cpp:16-114 | any interleaving of operations keeps the invariant that only a running writer holds queued lines |
| AsyncWriter.RunKeepsLines | src/MultiThreadWriter/Writer.cpp:62-114 | in every interleaving the file followed by the queue is the earlier lines followed by every accepted line, in acceptance order |
| AsyncWriter.StopFlushesAll | src/MultiThreadWriter/Writer.cpp:103-110 | after a final Stop the file holds exactly the earlier lines and every accepted line, in order |
| AsyncWriter.RunExtendsFile | src/MultiThreadWriter/Writer.cpp:94-97 | the file only grows: no operation removes or rewrites a written line |
| WriterUtils.Find | src/MultiThreadWriter/WriterUtils.h:57 | `find("{}")` yields the first position of `{}`, or none exactly when the text has no `{}` |
| WriterUtils.FormatOne | src/MultiThreadWriter/WriterUtils.h:55-63 | without `{}` the format is kept; otherwise the first `{}` is replaced by the value, everything before and after kept, so the result is two characters shorter plus the value |
| WriterUtils.LastStep | src/MultiThreadWriter/WriterUtils.h:55-63 | formatting with one argument replaces the first `{}` by it and keeps everything before and after |
| WriterUtils.FormatMany | src/MultiThreadWriter/WriterUtils.h:65-74 | a format without `{}` is written as it is and the arguments are dropped |
| WriterUtils.FormatManyIsScan | src/MultiThreadWriter/WriterUtils.h:65-74 | when every argument but the last is numeric text, the source's re-formatting fills the placeholders left to right |
| WriterUtils.InjectedPlaceholder | src/MultiThreadWriter/WriterUtils.h:69 | the numeric-text premise of `FormatManyIsScan` cannot be dropped: an argument containing `{}` would itself be filled by the next argument; `std::to_string` never yields a brace, so the source never reaches this case |
| WriterUtils.WriteFormatted | src/MultiThreadWriter/WriterUtils.h:19-24 | the formatted line is written, and the result is Write's |
| WriterUtils.WriteMetric | src/MultiThreadWriter/WriterUtils.h:26-31 | the line `name: value` is written, and the result is Write's |
| WriterUtils.WriteWithTimestamp | src/MultiThreadWriter/WriterUtils.h:14-17 | the stamp, a space and the text are written, and the result is Write's |
| WriterUtils.WriteMetricWithTimestamp | src/MultiThreadWriter/WriterUtils.h:34-39 | the line `stamp name: value` is written, and the result is Write's |
| WriterUtils.MetricLineLayout | src/MultiThreadWriter/WriterUtils.h:34-39 | for a four-digit year the line is the 23-character stamp, a space, then `name: value` |
| WriterUtils.MetricWithTimestampIsTimestampedText | src/MultiThreadWriter/WriterUtils.h:14-39 | writing a metric with a timestamp is writing `name: value` with a timestamp |
| Timestamp.RenderLayout | src/MultiThreadWriter/WriterUtils.h:42-53 | for a four-digit year the stamp is 23 characters `YYYY-MM-DD HH:MM:SS.mmm`, and every field reads back as the value it renders |
| Timestamp.SameSecondSamePrefix | src/MultiThreadWriter/WriterUtils.h:44-50 | two instants in the same local second share the first 20 characters and differ exactly when their milliseconds differ |
| Timestamp.Render | src/MultiThreadWriter/WriterUtils.h:42-53 | `GetCurrentTimestamp`: no contract of its own; specified by `Timestamp.RenderLayout` and `Timestamp.SameSecondSamePrefix` |

## Left out

- `LatencyMetric` and the percentile histogram it wraps are not part of this model.
- Reading `/proc/stat` or `GetSystemTimes` is not modelled. A CPU sample is an input, either a failure or ten counters.
- Clocks (`steady_clock`, `high_resolution_clock`, `system_clock`) are not modelled. Every clock read is an explicit input, and `localtime`'s conversion is an input too.
- Floating point is not modelled. CPU percentages and timer values are exact reals rounded half to even to two decimals, which stands in for `double` arithmetic and `std::fixed` printing.
- Concurrency is not modelled: mutexes, atomics, condition variables and the unlocked `running_`/`should_stop_` reads. Thread interleavings of the writer are explicit operation sequences, and a metric is never observed mid-update.
- `demangle` and `typeid` are not modelled. A type is a pair of its mangled and demangled names.
- Tag wiring is not modelled. `CPUUsageMetric` and `CodeTimeMetric` declare `using tag`, whose effect on `dynamic_cast` depends on the `Metrics::IMetric` base, which is not part of this model. Tags follow the manager's tests (tests/metrics_manager_tests.cpp:341-405).
- The order `std::sort` gives to entries with equal counts is not modelled. The model sorts stably, which is one order `std::sort` may produce, and lists the `unordered_map` in first-observation order.
- The `long long` counts of the cardinality stores and their `int` `n_top` are unbounded integers. Overflow of those fields is not modelled.
- The log file is modelled as the sequence of records `Write` accepted, not as lines of text. `std::endl` ends each record, and a record holding `'\n'` (every cardinality rendering does) spans two physical lines, so `["a\nb"]` and `["a", "b"]` give the same file.
- Lines already in the log file before the writer opened it (append mode) are not modelled.
- The cast to `int` of the store size in `std::min` is not modelled. The model assumes fewer than 2^31 keys.
- The skip of null entries in `Log<Tag>()` is not modelled. The registry never holds null metrics.
- MetricsManager.GetMetric: the requested class ranges over the seven metric classes (each `CardinalityMetricValue` instantiation told apart by its alternatives), `IMetric` and the tag classes; other base classes of a metric are not modelled, and the tag classes follow the tags chosen above.
- The three `MyAnyCast` overloads (reference, const reference, rvalue) share one model, `MyAny.Cast`.
- The copy and move constructors of `MyAny` share their models with the assignments.
- MyAny.MoveAssign: a self-move `a = std::move(a)` is not modelled, because the function takes two separate values and cannot express aliasing. In the source, `unique_ptr` self-move assignment keeps the contents.
- `PrettyPrint`'s fallbacks (the `std::string` cast, "Value can't be printed") are not modelled. The modelled payloads are integers, strings, characters and booleans, and all of them print through `operator<<`.
- HttpIncomeMetric.ValueString: the model renders the published count exactly, while `double` is exact only below 2^53.
- Timestamp.RenderLayout: states the 23-character layout only for four-digit years. Years below 1000 and beyond 9999 render in full but are not covered.
- CodeTimeMetric.UnitValue: in μs, ms and s the value is stated only to within half a hundredth, as the two-decimal rendering allows.
- CardinalityMetricAny.ValueString: states only the header prefix. The listed type names are given by `TypeNames` over `Cardinality.TopIsTopN`'s listing.
- CardinalityMetricType.ValueString: states only the header prefix. The listed type names are given by `TypeNames` over `Cardinality.TopIsTopN`'s listing.
- CardinalityMetricValue.ValueString: states only the header prefix. The listed entries are given by `JoinDescribed` over `Cardinality.TopIsTopN`'s listing.

=== FILE: async_writer.dfy ===
/** `AsyncWriter`: producers enqueue lines, one consumer thread appends
    them to a file. The model is sequential: thread interleavings become
    explicit `ConsumerStep`s, and the operating system's answer to opening
    the file and spawning the thread is an input to `Start`. */
module AsyncWriter {

  /** `file` holds the lines this writer has appended, `queue` the accepted
      lines not yet written. `running` and `stopRequested` are the two atomic
      flags. */
  datatype Writer = Writer(filename: string, file: seq<string>, queue: seq<string>,
                           running: bool, stopRequested: bool)

  /** What happens when `Start` opens the file and launches the thread. */
  datatype OpenOutcome = Opened | OpenFailed | ThreadFailed

  /** Only a running writer holds queued lines: `Stop` drains the queue and
      `Write` refuses when not running. */
  predicate Valid(w: Writer) {
    !w.running ==> w.queue == []
  }

  function New(filename: string): (w: Writer)
    ensures Valid(w) && !IsRunning(w) && w.file == [] && w.queue == []
  {
    Writer(filename, [], [], false, false)
  }

  function IsRunning(w: Writer): bool {
    w.running
  }

  /** Returns true when the writer ends up running. An already running writer
      is left alone; a failed open leaves the flags untouched; a failed thread
      launch closes the file and leaves the writer stopped. */
  function Start(w: Writer, outcome: OpenOutcome): (r: (Writer, bool))
    requires Valid(w)
    ensures Valid(r.0)
    ensures r.1 <==> r.0.running
    ensures r.1 <==> (w.running || outcome == Opened)
    ensures r.0.file == w.file && r.0.queue == w.queue
    ensures r.1 ==> !r.0.stopRequested || w.running
  {
    if w.running then (w, true)
    else match outcome
      case OpenFailed => (w, false)
      case ThreadFailed => (w.(stopRequested := false), false)
      case Opened => (w.(stopRequested := false, running := true), true)
  }

  /** A line is accepted (queued, true returned) iff the writer runs and no
      stop was requested; otherwise nothing changes. */
  function Write(w: Writer, text: string): (r: (Writer, bool))
    requires Valid(w)
    ensures Valid(r.0)
    ensures r.1 <==> (w.running && !w.stopRequested)
    ensures r.1 ==> r.0 == w.(queue := w.queue + [text])
    ensures !r.1 ==> r.0 == w
  {
    if !w.running || w.stopRequested then (w, false)
    else (w.(queue := w.queue + [text]), true)
  }

  /** One iteration of the consumer's inner loop: while not asked to stop,
      move the oldest queued line to the file. With nothing to do the
      consumer waits, which leaves the state as it is. */
  function ConsumerStep(w: Writer): (r: Writer)
    requires Valid(w)
    ensures Valid(r)
    ensures r.file + r.queue == w.file + w.queue
    ensures |r.queue| <= |w.queue|
    ensures w.running && !w.stopRequested && w.queue != [] ==> |r.queue| == |w.queue| - 1
  {
    if w.running && !w.stopRequested && |w.queue| > 0 then
      w.(file := w.file + [w.queue[0]], queue := w.queue[1..])
    else w
  }

  /** `Stop`: request the stop; when the consumer thread exists, join it,
      which writes out every queued line; the writer is then not running.
      The file is closed, but its lines remain. */
  function Stop(w: Writer): (r: Writer)
    requires Valid(w)
    ensures Valid(r)
    ensures !r.running && r.stopRequested
    ensures r.queue == [] && r.file == w.file + w.queue
    ensures r.filename == w.filename
  {
    var requested := w.(stopRequested := true);
    if requested.running then
      requested.(file := requested.file + requested.queue, queue := [], running := false)
    else requested.(running := false)
  }

  /** Calling `Stop` twice (the destructor after an explicit stop) is the same
      as calling it once. */
  lemma StopIdempotent(w: Writer)
    requires Valid(w)
    ensures Stop(Stop(w)) == Stop(w)
  {
  }

  /** A stopped writer refuses lines until restarted, and a restart that
      opens the file accepts them again. */
  lemma RestartAfterStop(w: Writer, text: string)
    requires Valid(w)
    ensures !Write(Stop(w), text).1
    ensures var s := Start(Stop(w), Opened).0; Write(s, text).1
  {
  }

  /** Everything a client may do to the writer, in some interleaving. */
  datatype Op = StartOp(outcome: OpenOutcome) | WriteOp(text: string) | Consume | StopOp

  function Apply(w: Writer, op: Op): (r: Writer)
    requires Valid(w)
    ensures Valid(r)
  {
    match op
    case StartOp(o) => Start(w, o).0
    case WriteOp(t) => Write(w, t).0
    case Consume => ConsumerStep(w)
    case StopOp => Stop(w)
  }

  function Run(w: Writer, ops: seq<Op>): (r: Writer)
    requires Valid(w)
    ensures Valid(r)
    decreases |ops|
  {
    if |ops| == 0 then w else Run(Apply(w, ops[0]), ops[1..])
  }

  /** The lines whose `Write` returned true, in call order. */
  function Accepted(w: Writer, ops: seq<Op>): seq<string>
    requires Valid(w)
    decreases |ops|
  {
    if |ops| == 0 then []
    else
      var head := match ops[0]
        case WriteOp(t) => if Write(w, t).1 then [t] else []
        case _ => [];
      head + Accepted(Apply(w, ops[0]), ops[1..])
  }

  lemma ApplyKeepsLines(w: Writer, op: Op)
    requires Valid(w)
    ensures var r := Apply(w, op);
      r.file + r.queue == w.file + w.queue + (match op
        case WriteOp(t) => if Write(w, t).1 then [t] else []
        case _ => [])
  {
  }

  /** No line is lost, duplicated or reordered: whatever the interleaving,
      the file followed by the queue is what was there before followed by
      every accepted line in the order `Write` accepted it. */
  lemma {:induction false} RunKeepsLines(w: Writer, ops: seq<Op>)
    requires Valid(w)
    ensures Run(w, ops).file + Run(w, ops).queue == w.file + w.queue + Accepted(w, ops)
    decreases |ops|
  {
    if |ops| > 0 {
      var next := Apply(w, ops[0]);
      ApplyKeepsLines(w, ops[0]);
      RunKeepsLines(next, ops[1..]);
    }
  }

  /** After a final `Stop` the file holds exactly the previous lines and
      every accepted line, in order. */
  lemma StopFlushesAll(w: Writer, ops: seq<Op>)
    requires Valid(w)
    ensures Stop(Run(w, ops)).file == w.file + w.queue + Accepted(w, ops)
    ensures Stop(Run(w, ops)).queue == []
  {
    RunKeepsLines(w, ops);
  }

  /** The file only grows: no operation removes or rewrites a written line. */
  lemma {:induction false} RunExtendsFile(w: Writer, ops: seq<Op>)
    requires Valid(w)
    ensures |w.file| <= |Run(w, ops).file| && Run(w, ops).file[..|w.file|] == w.file
    decreases |ops|
  {
    if |ops| > 0 {
      var next := Apply(w, ops[0]);
      assert |w.file| <= |next.file| && next.file[..|w.file|] == w.file;
      RunExtendsFile(next, ops[1..]);
      var r := Run(w, ops);
      assert r == Run(next, ops[1..]);
      assert r.file[..|w.file|] == r.file[..|next.file|][..|w.file|];
    }
  }
}

=== FILE: cardinality.dfy ===
/** The key -> count store shared by `CardinalityMetricValue`,
    `CardinalityMetricAny` and `CardinalityMetricType`, and the top-N
    listing their renderings are built from.

    The source keeps an `unordered_map`, whose iteration order is
    unspecified; the model keeps the map together with one admissible
    iteration order (first observation first). The source sorts with the
    unstable `std::sort`; the model sorts stably, which is one of the
    orders `std::sort` may produce. */
module Cardinality {
  import opened Text

  datatype Store<K> = Store(counts: map<K, int>, order: seq<K>, nTop: int)

  /** `order` lists every key of `counts` exactly once. */
  ghost predicate Valid<K>(s: Store<K>) {
    && (forall i, j :: 0 <= i < j < |s.order| ==> s.order[i] != s.order[j])
    && s.counts.Keys == (set k | k in s.order)
  }

  /** The default `n_top` of the cardinality metrics. */
  const DefaultTop: int := 5

  function New<K>(nTop: int := DefaultTop): (s: Store<K>)
    ensures Valid(s) && |s.counts| == 0 && s.nTop == nTop
  {
    Store(map[], [], nTop)
  }

  /** `Observe(key, count)`: a new key is recorded with `count`, a known key
      has `count` added; zero and negative counts still record the key.
      No other key changes. */
  function Observe<K>(s: Store<K>, key: K, count: int): (r: Store<K>)
    requires Valid(s)
    ensures Valid(r) && r.nTop == s.nTop
    ensures r.counts.Keys == s.counts.Keys + {key}
    ensures r.counts[key] == if key in s.counts then s.counts[key] + count else count
    ensures forall k :: k in s.counts && k != key ==> r.counts[k] == s.counts[k]
  {
    if key in s.counts then s.(counts := s.counts[key := s.counts[key] + count])
    else Store(s.counts[key := count], s.order + [key], s.nTop)
  }

  /** `Reset`: all keys are forgotten, `n_top` stays. */
  function Reset<K>(s: Store<K>): (r: Store<K>)
    ensures Valid(r) && |r.counts| == 0 && r.nTop == s.nTop
  {
    New(s.nTop)
  }

  /** Evaluate does nothing. */
  function Evaluate<K>(s: Store<K>): (r: Store<K>)
    ensures r == s
  {
    s
  }

  /** `observed_items_.size()`: the number of distinct keys. */
  function Unique<K>(s: Store<K>): nat {
    |s.counts|
  }

  lemma {:induction false} DistinctCard<K>(xs: seq<K>)
    requires forall i, j :: 0 <= i < j < |xs| ==> xs[i] != xs[j]
    ensures |(set k | k in xs)| == |xs|
    decreases |xs|
  {
    if |xs| > 0 {
      var init := xs[..|xs| - 1];
      var last := xs[|xs| - 1];
      DistinctCard(init);
      assert (set k | k in xs) == (set k | k in init) + {last} by {
        assert xs == init + [last];
      }
      assert last !in (set k | k in init) by {
        forall i | 0 <= i < |init| ensures init[i] != last {
          assert init[i] == xs[i];
        }
      }
    }
  }

  /** The iteration order lists as many keys as the map holds. */
  lemma OrderCoversKeys<K>(s: Store<K>)
    requires Valid(s)
    ensures |s.order| == Unique(s)
  {
    DistinctCard(s.order);
    assert |s.counts| == |s.counts.Keys|;
  }

  /** Re-observing a known key leaves the number of distinct keys alone; a
      new key adds one. */
  lemma ObserveUnique<K>(s: Store<K>, key: K, count: int)
    requires Valid(s)
    ensures Unique(Observe(s, key, count)) == if key in s.counts then Unique(s) else Unique(s) + 1
  {
    var r := Observe(s, key, count);
    if key in s.counts {
      assert r.counts.Keys == s.counts.Keys;
    } else {
      assert r.counts.Keys == s.counts.Keys + {key};
    }
  }

  type Entry<K> = (K, int)

  /** The (key, count) pairs in iteration order. */
  function Entries<K>(s: Store<K>): (es: seq<Entry<K>>)
    requires Valid(s)
    ensures |es| == |s.order|
    ensures forall i :: 0 <= i < |es| ==> es[i].0 == s.order[i] && es[i].1 == s.counts[s.order[i]]
  {
    seq(|s.order|, i requires 0 <= i < |s.order| => (s.order[i], s.counts[s.order[i]]))
  }

  /** Counts never increase along the sequence. */
  ghost predicate SortedByCount<K>(es: seq<Entry<K>>) {
    forall i, j :: 0 <= i < j < |es| ==> es[i].1 >= es[j].1
  }

  /** Places `x` before the first entry whose count does not exceed its own. */
  function Insert<K>(x: Entry<K>, es: seq<Entry<K>>): (r: seq<Entry<K>>)
    requires SortedByCount(es)
    ensures SortedByCount(r)
    ensures multiset(r) == multiset(es) + multiset{x}
    decreases |es|
  {
    if |es| == 0 || x.1 >= es[0].1 then [x] + es
    else
      var tail := Insert(x, es[1..]);
      HeadBoundsTail(x, es, tail);
      assert es == [es[0]] + es[1..];
      [es[0]] + tail
  }

  /** The head of a sorted sequence bounds every entry that an insertion of
      a smaller `x` into its tail produces. */
  lemma HeadBoundsTail<K>(x: Entry<K>, es: seq<Entry<K>>, tail: seq<Entry<K>>)
    requires SortedByCount(es) && |es| > 0 && x.1 < es[0].1
    requires multiset(tail) == multiset(es[1..]) + multiset{x}
    ensures forall y :: y in tail ==> es[0].1 >= y.1
  {
    forall y | y in tail ensures es[0].1 >= y.1 {
      assert y in multiset(tail);
      if y != x {
        assert y in multiset(es[1..]);
        var j :| 0 <= j < |es[1..]| && es[1..][j] == y;
        assert es[j + 1] == y;
      }
    }
  }

  /** Sorting by count, largest first; entries of equal count keep their
      relative order. */
  function SortByCount<K>(es: seq<Entry<K>>): (r: seq<Entry<K>>)
    ensures SortedByCount(r)
    ensures multiset(r) == multiset(es)
    decreases |es|
  {
    if |es| == 0 then []
    else
      assert es == [es[0]] + es[1..];
      Insert(es[0], SortByCount(es[1..]))
  }

  /** `std::min(n_top_, size)`, and no entries when that is negative. */
  function Steps<K>(s: Store<K>): nat {
    if s.nTop <= 0 then 0 else if s.nTop < Unique(s) then s.nTop else Unique(s)
  }

  /** The entries a rendering lists: the first `Steps` of the sorted ones. */
  function Top<K>(s: Store<K>): seq<Entry<K>>
    requires Valid(s)
  {
    OrderCoversKeys(s);
    var sorted := SortByCount(Entries(s));
    assert |sorted| == |Entries(s)| by {
      assert |multiset(sorted)| == |multiset(Entries(s))|;
    }
    sorted[..Steps(s)]
  }

  lemma Multiplicity<T>(s: seq<T>, i: nat, j: nat)
    requires i < j < |s| && s[i] == s[j]
    ensures multiset(s)[s[i]] >= 2
  {
    assert s == s[..j] + [s[j]] + s[j + 1..];
    assert s[i] in s[..j];
  }

  lemma {:induction false} DistinctMultiplicity<T>(s: seq<T>, x: T)
    requires forall i, j :: 0 <= i < j < |s| ==> s[i] != s[j]
    ensures multiset(s)[x] <= 1
    decreases |s|
  {
    if |s| > 0 {
      var rest := s[1..];
      assert s == [s[0]] + rest;
      DistinctMultiplicity(rest, x);
      if x == s[0] {
        assert x !in rest by {
          forall j | 0 <= j < |rest| ensures rest[j] != x {
            assert rest[j] == s[j + 1];
          }
        }
      }
    }
  }

  /** A sorted permutation has the same length and the same members. */
  lemma PermutationMembers<T>(xs: seq<T>, ys: seq<T>)
    requires multiset(xs) == multiset(ys)
    ensures |xs| == |ys|
    ensures forall y :: y in ys ==> y in xs
  {
    assert |multiset(xs)| == |multiset(ys)|;
    forall y | y in ys ensures y in xs {
      assert y in multiset(ys);
    }
  }

  /** Sorting keeps the keys of the entries pairwise distinct. */
  lemma SortedKeysDistinct<K>(es: seq<Entry<K>>, sorted: seq<Entry<K>>, i: nat, j: nat)
    requires multiset(sorted) == multiset(es)
    requires forall a, b :: 0 <= a < b < |es| ==> es[a].0 != es[b].0
    requires i < j < |sorted|
    ensures sorted[i].0 != sorted[j].0
  {
    PermutationMembers(es, sorted);
    if sorted[i].0 == sorted[j].0 {
      assert sorted[i] in sorted && sorted[j] in sorted;
      var a :| 0 <= a < |es| && es[a] == sorted[i];
      var b :| 0 <= b < |es| && es[b] == sorted[j];
      assert a == b;
      Multiplicity(sorted, i, j);
      DistinctMultiplicity(es, sorted[i]);
    }
  }

  /** What the rendering's list promises: exactly `max(0, min(n_top, size))`
      entries, counts non-increasing, each one a distinct key of the store with
      its count, and no key left out has a larger count than one listed. */
  lemma TopIsTopN<K>(s: Store<K>)
    requires Valid(s)
    ensures var top := Top(s);
      && |top| == Steps(s)
      && SortedByCount(top)
      && (forall i :: 0 <= i < |top| ==> top[i].0 in s.counts && s.counts[top[i].0] == top[i].1)
      && (forall i, j :: 0 <= i < j < |top| ==> top[i].0 != top[j].0)
      && (forall k, i :: k in s.counts && (forall j :: 0 <= j < |top| ==> top[j].0 != k) && 0 <= i < |top|
            ==> top[i].1 >= s.counts[k])
  {
    TopShape(s);
    TopCounts(s);
    TopDistinct(s);
    var top := Top(s);
    forall k, i | k in s.counts && (forall j :: 0 <= j < |top| ==> top[j].0 != k) && 0 <= i < |top|
      ensures top[i].1 >= s.counts[k]
    {
      TopDominates(s, k, i);
    }
  }

  /** The listing is the first `Steps` sorted entries, and so sorted itself. */
  lemma TopShape<K>(s: Store<K>)
    requires Valid(s)
    ensures var sorted := SortByCount(Entries(s));
      && |sorted| == |s.order| == Unique(s) && Steps(s) <= |sorted|
      && Top(s) == sorted[..Steps(s)] && |Top(s)| == Steps(s) && SortedByCount(Top(s))
  {
    OrderCoversKeys(s);
    var sorted := SortByCount(Entries(s));
    PermutationMembers(Entries(s), sorted);
  }

  lemma EntriesDistinct<K>(s: Store<K>)
    requires Valid(s)
    ensures var es := Entries(s); forall a, b :: 0 <= a < b < |es| ==> es[a].0 != es[b].0
  {
  }

  /** Every listed pair is a key of the store with its count. */
  lemma TopCounts<K>(s: Store<K>)
    requires Valid(s)
    ensures var top := Top(s);
      forall i :: 0 <= i < |top| ==> top[i].0 in s.counts && s.counts[top[i].0] == top[i].1
  {
    TopShape(s);
    var es := Entries(s);
    var sorted := SortByCount(es);
    PermutationMembers(es, sorted);
    var top := Top(s);
    forall i | 0 <= i < |top|
      ensures top[i].0 in s.counts && s.counts[top[i].0] == top[i].1
    {
      assert top[i] == sorted[i];
      assert sorted[i] in es;
    }
  }

  /** No key is listed twice. */
  lemma TopDistinct<K>(s: Store<K>)
    requires Valid(s)
    ensures var top := Top(s);
      forall i, j :: 0 <= i < j < |top| ==> top[i].0 != top[j].0
  {
    TopShape(s);
    var es := Entries(s);
    var sorted := SortByCount(es);
    var top := Top(s);
    EntriesDistinct(s);
    forall i, j | 0 <= i < j < |top|
      ensures top[i].0 != top[j].0
    {
      SortedKeysDistinct(es, sorted, i, j);
    }
  }

  /** A key left out of the listing sits at or after position `Steps` of the
      sorted entries, so no listed count is smaller than its count. */
  lemma TopDominates<K>(s: Store<K>, k: K, i: nat)
    requires Valid(s)
    requires k in s.counts
    requires forall j :: 0 <= j < |Top(s)| ==> Top(s)[j].0 != k
    requires i < |Top(s)|
    ensures Top(s)[i].1 >= s.counts[k]
  {
    OrderCoversKeys(s);
    var es := Entries(s);
    var sorted := SortByCount(es);
    PermutationMembers(sorted, es);
    var top := Top(s);
    assert top == sorted[..Steps(s)];
    assert k in s.order;
    var a :| 0 <= a < |s.order| && s.order[a] == k;
    assert es[a] in es;
    var b :| 0 <= b < |sorted| && sorted[b] == es[a];
    assert forall j :: 0 <= j < |top| ==> top[j] == sorted[j];
    assert b >= Steps(s);
    assert top[i] == sorted[i];
  }

  /** First line and start of the second line of every cardinality
      rendering. */
  function Header<K>(s: Store<K>): string {
    UniquePrefix + NatToString(Unique(s)) + "\n" + IntToString(s.nTop) + TopMarker
  }

  const UniquePrefix: string := "General number of unique elements: "
  const TopMarker: string := " most frequent types: "

  /** The header reports the number of distinct keys on its first line and
      echoes `n_top` verbatim (also zero, negative or above the size) at the
      start of the second. */
  lemma HeaderReports<K>(s: Store<K>)
    ensures var h := Header(s);
      var d := NatToString(Unique(s));
      var n := IntToString(s.nTop);
      && StartsWith(h, UniquePrefix)
      && h[|UniquePrefix|..|UniquePrefix| + |d|] == d
      && AllDigits(d) && ParseNat(d) == Unique(s)
      && h[|UniquePrefix| + |d|] == '\n'
      && h[|UniquePrefix| + |d| + 1..] == n + TopMarker
      && ParseInt(n) == s.nTop
  {
    var h := Header(s);
    var d := NatToString(Unique(s));
    var n := IntToString(s.nTop);
    assert h == UniquePrefix + d + "\n" + n + TopMarker;
    ParseNatToString(Unique(s));
    ParseIntToString(s.nTop);
  }

  /** After Reset the header reports zero unique elements and nothing is
      listed. */
  lemma ResetHeader<K>(s: Store<K>)
    ensures Header(Reset(s)) == UniquePrefix + "0\n" + IntToString(s.nTop) + TopMarker
    ensures Top(Reset(s)) == []
  {
    TopIsTopN(Reset(s));
    assert NatToString(0) == "0";
  }
}

=== FILE: cardinality_any.dfy ===
/** `CardinalityMetricAny`: counts observations keyed by `MyAny` boxes, and
    lists the implementation type names of the most frequent ones. */
module CardinalityMetricAny {
  import opened Cardinality
  import MyAny
  import Text

  const MetricName: string := "\"Cardinality\""

  function Name<V(==)>(s: Store<MyAny.Any<V>>): (n: string)
    ensures n == MetricName
  {
    MetricName
  }

  /** A metric constructed without arguments lists the top five. */
  function NewDefault<V(==)>(): (s: Store<MyAny.Any<V>>)
    ensures Valid(s) && Unique(s) == 0 && s.nTop == 5
  {
    Cardinality.New()
  }

  /** `Observe(item, count)`: the key is the box of `item`; boxes are the same
      key iff `MyAny` equality holds between them. */
  function Observe<V(==)>(s: Store<MyAny.Any<V>>, key: MyAny.Any<V>, count: int := 1): (r: Store<MyAny.Any<V>>)
    requires Valid(s)
    ensures Valid(r) && r == Cardinality.Observe(s, key, count)
    ensures r.counts[key] == if key in s.counts then s.counts[key] + count else count
    ensures Unique(r) == if key in s.counts then Unique(s) else Unique(s) + 1
  {
    ObserveUnique(s, key, count);
    Cardinality.Observe(s, key, count)
  }

  /** `type().name()` of each listed key followed by a space. */
  function TypeNames<V(==)>(es: seq<Entry<MyAny.Any<V>>>): (r: string)
    ensures r == "" <==> |es| == 0
    ensures |es| > 0 ==> Text.StartsWith(r, MyAny.Type(es[0].0).mangled + " ")
    decreases |es|
  {
    if |es| == 0 then ""
    else
      var head := MyAny.Type(es[0].0).mangled + " ";
      Text.Halves(head, TypeNames(es[1..]));
      head + TypeNames(es[1..])
  }

  function ValueString<V(==)>(s: Store<MyAny.Any<V>>): (r: string)
    requires Valid(s)
    ensures Text.StartsWith(r, Header(s))
  {
    Header(s) + TypeNames(Top(s))
  }

  /** The same type and value merge into one key whose counts add up; boxes of
      different types stay separate keys. */
  lemma KeyIdentity<V>(s: Store<MyAny.Any<V>>, t: MyAny.TypeInfo, u: MyAny.TypeInfo, v: V, w: V, c: int, d: int)
    requires Valid(s) && Unique(s) == 0
    ensures var r := Observe(Observe(s, MyAny.Val(t, v), c), MyAny.Val(t, v), d);
      Unique(r) == 1 && r.counts[MyAny.Val(t, v)] == c + d
    ensures t != u ==> Unique(Observe(Observe(s, MyAny.Val(t, v), c), MyAny.Val(u, w), d)) == 2
  {
    var r1 := Observe(s, MyAny.Val(t, v), c);
    ObserveUnique(s, MyAny.Val(t, v), c);
    ObserveUnique(r1, MyAny.Val(t, v), d);
    if t != u {
      ObserveUnique(r1, MyAny.Val(u, w), d);
    }
  }

  /** After Reset the rendering is the header alone. */
  lemma ResetListsNothing<V>(s: Store<MyAny.Any<V>>)
    ensures ValueString(Reset(s)) == Header(Reset(s))
  {
    ResetHeader(s);
  }
}

=== FILE: cardinality_type.dfy ===
/** `CardinalityMetricType`: the same store as `CardinalityMetricAny`,
    listing demangled type names. */
module CardinalityMetricType {
  import opened Cardinality
  import MyAny
  import Text

  const MetricName: string := "\"CardinalityType\""

  function Name<V(==)>(s: Store<MyAny.Any<V>>): (n: string)
    ensures n == MetricName
  {
    MetricName
  }

  /** The demangled name of each listed key's type followed by a space. */
  function TypeNames<V(==)>(es: seq<Entry<MyAny.Any<V>>>): (r: string)
    ensures r == "" <==> |es| == 0
    ensures |es| > 0 ==> Text.StartsWith(r, MyAny.Type(es[0].0).demangled + " ")
    decreases |es|
  {
    if |es| == 0 then ""
    else
      var head := MyAny.Type(es[0].0).demangled + " ";
      Text.Halves(head, TypeNames(es[1..]));
      head + TypeNames(es[1..])
  }

  function ValueString<V(==)>(s: Store<MyAny.Any<V>>): (r: string)
    requires Valid(s)
    ensures Text.StartsWith(r, Header(s))
  {
    Header(s) + TypeNames(Top(s))
  }

  /** After Reset the rendering reports zero unique elements and lists
      nothing. */
  lemma ResetReportsZero<V>(s: Store<MyAny.Any<V>>)
    ensures ValueString(Reset(s)) == Header(Reset(s))
    ensures Unique(Reset(s)) == 0
  {
    TopIsTopN(Reset(s));
  }
}

=== FILE: cardinality_value.dfy ===
/** `CardinalityMetricValue<Args...>`: counts how often each value of a
    `std::variant<Args...>` was observed; a key is the alternative's type
    together with the value. The alternatives modelled are the payloads of
    `Datum`. */
module CardinalityMetricValue {
  import opened Text
  import opened Cardinality
  import MyAny
  import Datum

  /** One value of the variant: which alternative, and the value. Two keys
      are equal iff they hold the same alternative with equal values. */
  datatype Alt = Alt(typ: MyAny.TypeInfo, value: Datum.Datum)

  const MetricName: string := "\"CardinalityValue\""

  function Name(s: Store<Alt>): (n: string)
    ensures n == MetricName
  {
    MetricName
  }

  /** A metric constructed without arguments lists the top five. */
  function NewDefault(): (s: Store<Alt>)
    ensures Valid(s) && Unique(s) == 0 && s.nTop == 5
  {
    Cardinality.New()
  }

  function Observe(s: Store<Alt>, typ: MyAny.TypeInfo, value: Datum.Datum, count: int := 1): (r: Store<Alt>)
    requires Valid(s)
    ensures Valid(r) && r == Cardinality.Observe(s, Alt(typ, value), count)
  {
    Cardinality.Observe(s, Alt(typ, value), count)
  }

  /** `demangled-type value (quantity: n)`, the value as `PrettyPrint`
      renders it. */
  function Describe(e: Entry<Alt>): string {
    e.0.typ.demangled + " " + Datum.Show(e.0.value) + " (quantity: " + IntToString(e.1) + ")"
  }

  /** The listed entries separated by ", ". */
  function JoinDescribed(es: seq<Entry<Alt>>): string
    decreases |es|
  {
    if |es| == 0 then ""
    else if |es| == 1 then Describe(es[0])
    else Describe(es[0]) + (", " + JoinDescribed(es[1..]))
  }

  function ValueString(s: Store<Alt>): (r: string)
    requires Valid(s)
    ensures StartsWith(r, Header(s))
  {
    Halves(Header(s), JoinDescribed(Top(s)));
    Header(s) + JoinDescribed(Top(s))
  }

  /** Every description is non-empty, so the listing is empty exactly when
      no entry is listed. */
  lemma JoinedEmptyIff(es: seq<Entry<Alt>>)
    ensures JoinDescribed(es) == "" <==> |es| == 0
  {
    if |es| > 0 {
      var first := Describe(es[0]);
      assert |first| > 0;
      assert |JoinDescribed(es)| >= |first|;
    }
  }

  /** Rendering after Evaluate is rendering before; with no keys the listing
      after the header is empty. */
  lemma RenderStable(s: Store<Alt>)
    requires Valid(s)
    ensures ValueString(Evaluate(s)) == ValueString(s)
    ensures Unique(s) == 0 ==> ValueString(s) == Header(s)
  {
    if Unique(s) == 0 {
      TopIsTopN(s);
    }
  }
}

=== FILE: code_time_metric.dfy ===
/** `CodeTimeMetric`: a stopwatch over a clock reading in nanoseconds. Every
    clock read of the source becomes the `now` argument of the operation. */
module CodeTimeMetric {
  import opened Text
  import opened UInt64
  import opened FixedPoint
  import DefaultNames

  datatype Timer = Timer(name: string, start: int, finish: int, running: bool)

  /** Two successive clock reads: the constructor, Reset and Start each read
      the clock once for the start and once more for the finish. */
  datatype Reads = Reads(first: int, second: int)

  /** Default name `"Algorithm N"` (with the quotes) from the class-wide
      counter. */
  function CreateDefaultName(c: DefaultNames.NameCounter): (r: (string, DefaultNames.NameCounter))
    ensures r.1.issued == Add(c.issued, 1)
    ensures r.0 == "\"Algorithm " + NatToString(r.1.issued) + "\""
  {
    DefaultNames.Next(c, "\"Algorithm ", "\"")
  }

  function New(name: string, c: Reads): (t: Timer)
    ensures t.name == name && !t.running && Duration(t) == c.second - c.first
  {
    Timer(name, c.first, c.second, false)
  }

  /** The name given at construction, verbatim. */
  function Name(t: Timer): (s: string)
    ensures s == t.name
  {
    t.name
  }

  function Duration(t: Timer): int {
    t.finish - t.start
  }

  const Nanos: string := " ns"
  const Micros: string := " \U{03BC}s"
  const Millis: string := " ms"
  const Seconds: string := " s"

  /** A nanosecond count in the largest unit it reaches: whole nanoseconds
      below 1000, otherwise microseconds, milliseconds or seconds with two
      decimals. */
  function RenderDuration(d: int): string {
    if d < 1000 then IntToString(d) + Nanos
    else if d < 1_000_000 then Fixed2(d as real / 1000.0) + Micros
    else if d < 1_000_000_000 then Fixed2(d as real / 1_000_000.0) + Millis
    else Fixed2(d as real / 1_000_000_000.0) + Seconds
  }

  /** The unit shown is the largest one the duration reaches. */
  function ValueString(t: Timer): (s: string)
    ensures EndsWith(s, Nanos) <==> Duration(t) < 1000
    ensures EndsWith(s, Micros) <==> 1000 <= Duration(t) < 1_000_000
    ensures EndsWith(s, Millis) <==> 1_000_000 <= Duration(t) < 1_000_000_000
    ensures EndsWith(s, Seconds) <==> 1_000_000_000 <= Duration(t)
  {
    UnitSelection(Duration(t));
    RenderDuration(Duration(t))
  }

  function Evaluate(t: Timer): (r: Timer)
    ensures r == t
  {
    t
  }

  function Reset(t: Timer, c: Reads): (r: Timer)
    ensures r.name == t.name && !r.running
    ensures r.start == c.first && r.finish == c.second
  {
    t.(start := c.first, finish := c.second, running := false)
  }

  /** Starting (also while running) opens a fresh interval at the first read;
      the second read is the finish shown until Stop. */
  function Start(t: Timer, c: Reads): (r: Timer)
    ensures r.name == t.name && r.running
    ensures r.start == c.first && r.finish == c.second
  {
    t.(start := c.first, finish := c.second, running := true)
  }

  /** Stopping a running timer closes the interval at `now`; stopping an idle
      one does nothing. */
  function Stop(t: Timer, now: int): (r: Timer)
    ensures !r.running && r.name == t.name && r.start == t.start
    ensures t.running ==> r.finish == now
    ensures !t.running ==> r == t
  {
    if t.running then t.(finish := now, running := false) else t
  }

  /** Start with first read `c.first`, stop at `b`: the measured duration is
      `b - c.first`. */
  lemma StartStopMeasures(t: Timer, c: Reads, b: int)
    ensures Duration(Stop(Start(t, c), b)) == b - c.first
  {
  }

  /** A second Stop does not change the timer, hence not its rendering;
      a second Start restarts. */
  lemma StopStartIdempotence(t: Timer, a: int, b: int, c: Reads, d: Reads)
    ensures Stop(Stop(t, a), b) == Stop(t, a)
    ensures ValueString(Stop(Stop(t, a), b)) == ValueString(Stop(t, a))
    ensures Start(Start(t, c), d) == Start(t, d)
  {
  }

  /** A reset timer shows the gap between its two clock reads: "0 ns" when
      they agree, a nanosecond count when they are less than a microsecond
      apart. */
  lemma ResetRendersGap(t: Timer, c: Reads)
    ensures c.first == c.second ==> ValueString(Reset(t, c)) == "0 ns"
    ensures 0 <= c.second - c.first < 1000 ==>
      ValueString(Reset(t, c)) == IntToString(c.second - c.first) + Nanos
  {
  }

  /** The unit follows the duration thresholds, and the number in front of it
      denotes the duration in that unit (exactly for nanoseconds, to within
      half a hundredth otherwise). */
  lemma UnitSelection(d: int)
    ensures var s := RenderDuration(d);
      && (EndsWith(s, Nanos) <==> d < 1000)
      && (EndsWith(s, Micros) <==> 1000 <= d < 1_000_000)
      && (EndsWith(s, Millis) <==> 1_000_000 <= d < 1_000_000_000)
      && (EndsWith(s, Seconds) <==> 1_000_000_000 <= d)
  {
    if d < 1000 {
      UnitTail(IntToString(d), Nanos);
    } else if d < 1_000_000 {
      UnitTail(Fixed2(d as real / 1000.0), Micros);
    } else if d < 1_000_000_000 {
      UnitTail(Fixed2(d as real / 1_000_000.0), Millis);
    } else {
      UnitTail(Fixed2(d as real / 1_000_000_000.0), Seconds);
    }
  }

  /** The four unit suffixes are told apart by the text's last characters. */
  lemma UnitTail(num: string, unit: string)
    requires unit == Nanos || unit == Micros || unit == Millis || unit == Seconds
    ensures EndsWith(num + unit, Nanos) <==> unit == Nanos
    ensures EndsWith(num + unit, Micros) <==> unit == Micros
    ensures EndsWith(num + unit, Millis) <==> unit == Millis
    ensures EndsWith(num + unit, Seconds) <==> unit == Seconds
  {
    var s := num + unit;
    assert s[|s| - |unit|..] == unit;
    assert s[|s| - 2] == unit[|unit| - 2];
    EndsWithMark(s, Nanos);
    EndsWithMark(s, Micros);
    EndsWithMark(s, Millis);
    EndsWithMark(s, Seconds);
  }

  lemma EndsWithMark(s: string, unit: string)
    requires |unit| >= 2
    ensures EndsWith(s, unit) ==> s[|s| - 2] == unit[|unit| - 2]
  {
    if EndsWith(s, unit) {
      assert s[|s| - 2] == s[|s| - |unit|..][|unit| - 2];
    }
  }

  /** `s` is a two-decimal number followed by `unit`, and the number is `v`
      to within half a hundredth. */
  ghost predicate ReadsAs(s: string, unit: string, v: real) {
    && |s| >= |unit|
    && IsFixed2(s[..|s| - |unit|])
    && v - 0.005 <= ParseFixed2(s[..|s| - |unit|]) <= v + 0.005
  }

  /** A two-decimal number followed by a unit reads back, after cutting the
      unit off, as the value to within half a hundredth. */
  lemma FixedWithUnit(v: real, unit: string)
    ensures ReadsAs(Fixed2(v) + unit, unit, v)
  {
    Fixed2RoundTrip(v);
    Halves(Fixed2(v), unit);
  }

  lemma UnitValue(d: int)
    ensures var s := RenderDuration(d);
      && (d < 1000 ==> |s| > |Nanos| && ParseInt(s[..|s| - |Nanos|]) == d)
      && (1000 <= d < 1_000_000 ==> ReadsAs(s, Micros, d as real / 1000.0))
      && (1_000_000 <= d < 1_000_000_000 ==> ReadsAs(s, Millis, d as real / 1_000_000.0))
      && (1_000_000_000 <= d ==> ReadsAs(s, Seconds, d as real / 1_000_000_000.0))
  {
    if d < 1000 {
      NanosValue(d);
    } else if d < 1_000_000 {
      MicrosValue(d);
    } else if d < 1_000_000_000 {
      MillisValue(d);
    } else {
      SecondsValue(d);
    }
  }

  lemma NanosValue(d: int)
    requires d < 1000
    ensures var s := RenderDuration(d);
      |s| > |Nanos| && ParseInt(s[..|s| - |Nanos|]) == d
  {
    ParseIntToString(d);
    Halves(IntToString(d), Nanos);
  }

  lemma MicrosValue(d: int)
    requires 1000 <= d < 1_000_000
    ensures ReadsAs(RenderDuration(d), Micros, d as real / 1000.0)
  {
    var v := d as real / 1000.0;
    assert RenderDuration(d) == Fixed2(v) + Micros;
    FixedWithUnit(v, Micros);
  }

  lemma MillisValue(d: int)
    requires 1_000_000 <= d < 1_000_000_000
    ensures ReadsAs(RenderDuration(d), Millis, d as real / 1_000_000.0)
  {
    var v := d as real / 1_000_000.0;
    assert RenderDuration(d) == Fixed2(v) + Millis;
    FixedWithUnit(v, Millis);
  }

  lemma SecondsValue(d: int)
    requires 1_000_000_000 <= d
    ensures ReadsAs(RenderDuration(d), Seconds, d as real / 1_000_000_000.0)
  {
    var v := d as real / 1_000_000_000.0;
    assert RenderDuration(d) == Fixed2(v) + Seconds;
    FixedWithUnit(v, Seconds);
  }
}

=== FILE: cpu_usage_metric.dfy ===
/** `CPUUsageMetric`: busy share of CPU time between two samples of the ten
    cumulative counters of the first line of `/proc/stat`. Reading the OS is
    outside the model: every sample is an input, either a failure or ten
    counters. */
module CpuUsageMetric {
  import opened UInt64
  import opened Text
  import FixedPoint

  /** The `CPUTimes` record; a default one is all zeros. */
  datatype CpuTimes = CpuTimes(
    user: u64, nice: u64, system: u64, idle: u64, iowait: u64,
    irq: u64, softirq: u64, steal: u64, guest: u64, guestNice: u64)

  const ZeroTimes: CpuTimes := CpuTimes(0, 0, 0, 0, 0, 0, 0, 0, 0, 0)

  /** The counters in declaration order. */
  function Fields(t: CpuTimes): (s: seq<u64>)
    ensures |s| == 10
  {
    [t.user, t.nice, t.system, t.idle, t.iowait, t.irq, t.softirq, t.steal, t.guest, t.guestNice]
  }

  function Sum(s: seq<u64>): nat {
    if |s| == 0 then 0 else s[0] + Sum(s[1..])
  }

  /** The mathematical sum of the ten counters. */
  function ExactSum(t: CpuTimes): nat {
    Sum(Fields(t))
  }

  /** Left-to-right 64-bit addition of `s` onto `acc`. */
  function AddAll(acc: u64, s: seq<u64>): u64
    decreases |s|
  {
    if |s| == 0 then acc else AddAll(Add(acc, s[0]), s[1..])
  }

  lemma {:induction false} AddAllWraps(acc: u64, s: seq<u64>)
    ensures AddAll(acc, s) == Wrap(acc + Sum(s))
    decreases |s|
  {
    if |s| > 0 {
      AddAllWraps(Add(acc, s[0]), s[1..]);
      WrapSum(acc + s[0], Sum(s[1..]));
    }
  }

  /** The ten counters summed field by field. */
  lemma ExactSumFields(t: CpuTimes)
    ensures ExactSum(t) == t.user + t.nice + t.system + t.idle + t.iowait + t.irq
                           + t.softirq + t.steal + t.guest + t.guestNice
  {
    var f := Fields(t);
    assert Sum(f[9..]) == t.guestNice;
    assert Sum(f[8..]) == t.guest + Sum(f[9..]);
    assert Sum(f[7..]) == t.steal + Sum(f[8..]);
    assert Sum(f[6..]) == t.softirq + Sum(f[7..]);
    assert Sum(f[5..]) == t.irq + Sum(f[6..]);
    assert Sum(f[4..]) == t.iowait + Sum(f[5..]);
    assert Sum(f[3..]) == t.idle + Sum(f[4..]);
    assert Sum(f[2..]) == t.system + Sum(f[3..]);
    assert Sum(f[1..]) == t.nice + Sum(f[2..]);
    assert Sum(f) == t.user + Sum(f[1..]);
  }

  /** `getTotal`: the ten counters added left to right in 64-bit arithmetic,
      which is their exact sum reduced modulo 2^64. */
  function Total(t: CpuTimes): (r: u64)
    ensures r == Wrap(ExactSum(t))
    ensures ExactSum(t) < Modulus ==> r == ExactSum(t)
  {
    AddAllWraps(0, Fields(t));
    AddAll(0, Fields(t))
  }

  /** `idle + iowait`, in 64-bit arithmetic. */
  function IdleTime(t: CpuTimes): u64 {
    Add(t.idle, t.iowait)
  }

  /** A default record totals zero. */
  lemma ZeroTimesTotal()
    ensures Total(ZeroTimes) == 0
  {
  }

  /** Ten counters of floor((2^64 - 1) / 10) still add up exactly. */
  lemma TenthsTotal(t: CpuTimes)
    requires t == CpuTimes(1844674407370955161, 1844674407370955161, 1844674407370955161,
                           1844674407370955161, 1844674407370955161, 1844674407370955161,
                           1844674407370955161, 1844674407370955161, 1844674407370955161,
                           1844674407370955161)
    ensures Total(t) == 18446744073709551610
  {
  }

  /** When the sum does not overflow, idle time is part of the total. */
  lemma IdleWithinTotal(t: CpuTimes)
    requires ExactSum(t) < Modulus
    ensures IdleTime(t) <= Total(t)
  {
    ExactSumFields(t);
  }

  /** Without that proviso it fails: the total wraps to 0 while idle is 1. */
  lemma IdleExceedsWrappedTotal()
    ensures var t := CpuTimes(Modulus - 1, 0, 0, 1, 0, 0, 0, 0, 0, 0);
      Total(t) == 0 && IdleTime(t) == 1
  {
    var t := CpuTimes(Modulus - 1, 0, 0, 1, 0, 0, 0, 0, 0, 0);
    ExactSumFields(t);
    assert ExactSum(t) == Modulus;
    assert Wrap(Modulus) == 0;
  }

  /** Field-wise non-decreasing counters whose sums do not overflow. */
  predicate Monotone(prev: CpuTimes, cur: CpuTimes) {
    && prev.user <= cur.user && prev.nice <= cur.nice && prev.system <= cur.system
    && prev.idle <= cur.idle && prev.iowait <= cur.iowait && prev.irq <= cur.irq
    && prev.softirq <= cur.softirq && prev.steal <= cur.steal && prev.guest <= cur.guest
    && prev.guestNice <= cur.guestNice
    && ExactSum(cur) < Modulus
  }

  /** Between monotone samples the idle delta is at most the total delta. */
  lemma IdleDeltaWithinTotalDelta(prev: CpuTimes, cur: CpuTimes)
    requires Monotone(prev, cur)
    ensures Sub(IdleTime(cur), IdleTime(prev)) <= Sub(Total(cur), Total(prev))
  {
    ExactSumFields(prev);
    ExactSumFields(cur);
  }

  datatype Sample = Failed | Read(times: CpuTimes)

  /** `percent` is the value shown; `prev` and `prevTime` are the baseline
      sample and its clock reading (0 for the clock's epoch). */
  datatype Usage = Usage(percent: real, prev: CpuTimes, prevTime: int)

  /** The constructor takes one sample; a failed one leaves zero counters. */
  function New(initial: Sample, now: int): (m: Usage)
    ensures m.percent == 0.0 && m.prevTime == now
    ensures m.prev == if initial.Read? then initial.times else ZeroTimes
  {
    match initial
    case Read(t) => Usage(0.0, t, now)
    case Failed => Usage(0.0, ZeroTimes, now)
  }

  const MetricName: string := "\"CPU Usage\""

  function Name(m: Usage): (s: string)
    ensures s == MetricName
  {
    MetricName
  }

  /** The percentage with two decimals and a percent sign. */
  function ValueString(m: Usage): (s: string)
    ensures |s| > 0 && s[|s| - 1] == '%'
    ensures FixedPoint.IsFixed2(s[..|s| - 1])
    ensures m.percent - 0.005 <= FixedPoint.ParseFixed2(s[..|s| - 1]) <= m.percent + 0.005
  {
    FixedPoint.Fixed2RoundTrip(m.percent);
    var s := FixedPoint.Fixed2(m.percent) + "%";
    assert s[..|s| - 1] == FixedPoint.Fixed2(m.percent);
    s
  }

  /** The first sample after construction with zero counters, or after
      Reset, only records a baseline. */
  predicate IsBaseline(m: Usage) {
    Total(m.prev) == 0 || m.prevTime == 0
  }

  /** The busy share between two samples, in 64-bit counter arithmetic;
      0 when no time passed. */
  function BusyPercent(prev: CpuTimes, cur: CpuTimes): real {
    var totalDelta := Sub(Total(cur), Total(prev));
    var idleDelta := Sub(IdleTime(cur), IdleTime(prev));
    if totalDelta > 0 then Sub(totalDelta, idleDelta) as real / totalDelta as real * 100.0 else 0.0
  }

  function Evaluate(m: Usage, sample: Sample, now: int): (r: Usage)
    ensures sample.Failed? ==> r.percent == -1.0 && r.prev == m.prev && r.prevTime == m.prevTime
    ensures sample.Read? ==> r.prev == sample.times && r.prevTime == now
    ensures sample.Read? && IsBaseline(m) ==> r.percent == 0.0
    ensures sample.Read? && !IsBaseline(m) ==> r.percent == BusyPercent(m.prev, sample.times)
  {
    match sample
    case Failed => m.(percent := -1.0)
    case Read(cur) =>
      if IsBaseline(m) then Usage(0.0, cur, now)
      else Usage(BusyPercent(m.prev, cur), cur, now)
  }

  function Reset(m: Usage): (r: Usage)
    ensures r.percent == 0.0 && Total(r.prev) == 0 && r.prevTime == 0
    ensures r.prev == ZeroTimes
  {
    Usage(0.0, ZeroTimes, 0)
  }

  /** After Reset the next successful Evaluate is a baseline and shows 0. */
  lemma ResetThenEvaluate(m: Usage, t: CpuTimes, now: int)
    ensures IsBaseline(Reset(m))
    ensures Evaluate(Reset(m), Read(t), now).percent == 0.0
    ensures Evaluate(Reset(m), Read(t), now).prev == t
  {
  }

  /** With monotone counters the busy share lies in [0, 100]. */
  lemma BusyPercentBounded(prev: CpuTimes, cur: CpuTimes)
    requires Monotone(prev, cur)
    ensures 0.0 <= BusyPercent(prev, cur) <= 100.0
  {
    var td := Sub(Total(cur), Total(prev));
    var id := Sub(IdleTime(cur), IdleTime(prev));
    IdleDeltaWithinTotalDelta(prev, cur);
    if td > 0 {
      var busy := Sub(td, id);
      assert busy == td - id;
      FractionAtMostOne(busy as real, td as real);
    }
  }

  lemma FractionAtMostOne(x: real, y: real)
    requires 0.0 <= x <= y && y > 0.0
    ensures 0.0 <= x / y * 100.0 <= 100.0
  {
    assert x / y <= 1.0 by {
      assert x / y * y == x;
    }
  }

  /** Every value an Evaluate over monotone samples can show is a valid
      percentage. */
  lemma EvaluateBounded(m: Usage, t: CpuTimes, now: int)
    requires Monotone(m.prev, t)
    ensures 0.0 <= Evaluate(m, Read(t), now).percent <= 100.0
  {
    if !IsBaseline(m) {
      BusyPercentBounded(m.prev, t);
    }
  }

  /** The source does not clamp: when idle time goes backwards between two
      samples the shown value exceeds 100. */
  lemma IdleRegressionExceeds100(prev: CpuTimes, cur: CpuTimes)
    requires prev == CpuTimes(0, 0, 0, 10, 0, 0, 0, 0, 0, 0)
    requires cur == CpuTimes(10, 0, 0, 5, 0, 0, 0, 0, 0, 0)
    ensures BusyPercent(prev, cur) == 200.0
  {
    SmallTotal(prev);
    SmallTotal(cur);
    var td := Sub(Total(cur), Total(prev));
    var id := Sub(IdleTime(cur), IdleTime(prev));
    assert td == 5;
    assert id == Modulus - 5;
    BusyFromDeltas(prev, cur, td, id);
    DoubleShare(Sub(td, id), td);
  }

  lemma DoubleShare(busy: int, total: int)
    requires busy == 10 && total == 5
    ensures busy as real / total as real * 100.0 == 200.0
  {
    assert 10.0 / 5.0 == 2.0;
  }

  /** Without overflow the total is the field sum. */
  lemma SmallTotal(t: CpuTimes)
    requires t.user + t.nice + t.system + t.idle + t.iowait + t.irq
             + t.softirq + t.steal + t.guest + t.guestNice < Modulus
    ensures Total(t) == t.user + t.nice + t.system + t.idle + t.iowait + t.irq
                        + t.softirq + t.steal + t.guest + t.guestNice
  {
    ExactSumFields(t);
  }

  lemma BusyFromDeltas(prev: CpuTimes, cur: CpuTimes, td: u64, id: u64)
    requires td == Sub(Total(cur), Total(prev)) && id == Sub(IdleTime(cur), IdleTime(prev))
    requires td > 0
    ensures BusyPercent(prev, cur) == Sub(td, id) as real / td as real * 100.0
  {
  }
}

=== FILE: datum.dfy ===
/** The payloads the model's cardinality metrics observe, with the text
    `operator<<` prints for each. */
module Datum {
  import opened Text

  datatype Datum = IntD(i: int) | TextD(s: string) | CharD(c: char) | BoolD(b: bool)

  /** `PrettyPrint`: integers in decimal, strings and characters as they are,
      booleans as 1 or 0. */
  function Show(d: Datum): string {
    match d
    case IntD(i) => IntToString(i)
    case TextD(s) => s
    case CharD(c) => [c]
    case BoolD(b) => if b then "1" else "0"
  }
}

=== FILE: default_names.dfy ===
/** The process-wide counters behind generated default names
    (`"IncrementMetric N"`, `"Algorithm N"`, `metricsN.log`). Each call
    pre-increments a 64-bit counter and embeds the new value; the counter is
    passed in and returned explicitly instead of living in a static. */
module DefaultNames {
  import opened Text
  import opened UInt64

  datatype NameCounter = NameCounter(issued: u64)

  const Fresh: NameCounter := NameCounter(0)

  /** One `CreateDefaultName` call: the counter moves on by one and the name
      carries its new value between `prefix` and `suffix`. */
  function Next(c: NameCounter, prefix: string, suffix: string): (r: (string, NameCounter))
    ensures r.1.issued == Add(c.issued, 1)
    ensures StartsWith(r.0, prefix) && EndsWith(r.0, suffix)
  {
    var n := Add(c.issued, 1);
    (prefix + NatToString(n) + suffix, NameCounter(n))
  }

  /** The names handed out by `k` successive calls. */
  function Issue(c: NameCounter, k: nat, prefix: string, suffix: string): (names: seq<string>)
    ensures |names| == k
    decreases k
  {
    if k == 0 then []
    else
      var (name, c') := Next(c, prefix, suffix);
      [name] + Issue(c', k - 1, prefix, suffix)
  }

  /** Before the counter wraps, the i-th issued name embeds `issued + i + 1`. */
  lemma {:induction false} IssueNumbers(c: NameCounter, k: nat, prefix: string, suffix: string)
    requires c.issued + k < Modulus
    ensures forall i :: 0 <= i < k ==>
      Issue(c, k, prefix, suffix)[i] == prefix + NatToString(c.issued + i + 1) + suffix
    decreases k
  {
    if k > 0 {
      var c' := Next(c, prefix, suffix).1;
      IssueNumbers(c', k - 1, prefix, suffix);
      var names := Issue(c, k, prefix, suffix);
      forall i | 0 <= i < k
        ensures names[i] == prefix + NatToString(c.issued + i + 1) + suffix
      {
        if i > 0 {
          assert names[i] == Issue(c', k - 1, prefix, suffix)[i - 1];
        }
      }
    }
  }

  lemma FrameCancel(prefix: string, a: string, b: string, suffix: string)
    requires prefix + a + suffix == prefix + b + suffix
    ensures a == b
  {
    var s := prefix + a + suffix;
    assert |a| == |b|;
    assert a == s[|prefix|..|prefix| + |a|];
    assert b == (prefix + b + suffix)[|prefix|..|prefix| + |b|];
  }

  /** Up to 2^64 - 1 successive default names are pairwise distinct. */
  lemma IssuedNamesDistinct(c: NameCounter, k: nat, prefix: string, suffix: string)
    requires c.issued + k < Modulus
    ensures forall i, j :: 0 <= i < j < k ==>
      Issue(c, k, prefix, suffix)[i] != Issue(c, k, prefix, suffix)[j]
  {
    var names := Issue(c, k, prefix, suffix);
    IssueNumbers(c, k, prefix, suffix);
    forall i, j | 0 <= i < j < k
      ensures names[i] != names[j]
    {
      if names[i] == names[j] {
        FrameCancel(prefix, NatToString(c.issued + i + 1), NatToString(c.issued + j + 1), suffix);
        NatToStringInjective(c.issued + i + 1, c.issued + j + 1);
      }
    }
  }
}

=== FILE: fixed_point.dfy ===
/** `std::fixed << std::setprecision(2)` output of a value, taken as an
    exact real: an optional minus sign, the integer part, a point and two
    digits, rounded to the nearest hundredth with ties to even. */
module FixedPoint {
  import opened Text

  /** Nearest integer to a non-negative real, ties to the even neighbour. */
  function RoundHalfEven(x: real): (r: nat)
    requires x >= 0.0
    ensures x - 0.5 <= r as real <= x + 0.5
  {
    var f := x.Floor;
    var frac := x - f as real;
    if frac > 0.5 || (frac == 0.5 && f % 2 == 1) then f + 1 else f
  }

  /** The magnitude in hundredths after rounding. */
  function Cents(v: real): nat {
    RoundHalfEven(if v < 0.0 then -v * 100.0 else v * 100.0)
  }

  function Fixed2(v: real): string {
    var n := Cents(v);
    (if v < 0.0 then "-" else "") + NatToString(n / 100) + "." + PadLeft(n % 100, 2)
  }

  /** Shape of a two-decimal rendering: `[-]digits.dd`. */
  predicate IsFixed2(s: string) {
    var start := if |s| > 0 && s[0] == '-' then 1 else 0;
    && |s| >= start + 4
    && AllDigits(s[start..|s| - 3])
    && s[|s| - 3] == '.'
    && AllDigits(s[|s| - 2..])
  }

  /** Reads back the value a two-decimal rendering denotes. */
  function ParseFixed2(s: string): real
    requires IsFixed2(s)
  {
    var neg := s[0] == '-';
    var start := if neg then 1 else 0;
    var magnitude := (ParseNat(s[start..|s| - 3]) * 100 + ParseNat(s[|s| - 2..])) as real / 100.0;
    if neg then -magnitude else magnitude
  }

  /** The rendering is well formed and denotes the value to within half a
      hundredth. */
  lemma Fixed2RoundTrip(v: real)
    ensures IsFixed2(Fixed2(v))
    ensures v - 0.005 <= ParseFixed2(Fixed2(v)) <= v + 0.005
  {
    var n := Cents(v);
    var sign := if v < 0.0 then "-" else "";
    var ip := NatToString(n / 100);
    var fp := PadLeft(n % 100, 2);
    PadLeftWidth(n % 100, 2);
    assert Fixed2(v) == sign + ip + "." + fp;
    ParseParts(sign, ip, fp);
    ParseNatToString(n / 100);
    PadLeftValue(n % 100, 2);
    CentsClose(v);
  }

  /** Sign, digits, point and two digits parse back part by part. */
  lemma ParseParts(sign: string, ip: string, fp: string)
    requires sign == "" || sign == "-"
    requires |ip| >= 1 && AllDigits(ip) && |fp| == 2 && AllDigits(fp)
    ensures IsFixed2(sign + ip + "." + fp)
    ensures var m := (ParseNat(ip) * 100 + ParseNat(fp)) as real / 100.0;
      ParseFixed2(sign + ip + "." + fp) == if sign == "-" then -m else m
  {
    var s := sign + ip + "." + fp;
    assert s[|sign|..|s| - 3] == ip;
    assert s[|s| - 2..] == fp;
    assert s[0] == '-' <==> sign == "-";
  }

  /** The hundredths, signed, lie within half a hundredth of the value. */
  lemma CentsClose(v: real)
    ensures var m := Cents(v) as real / 100.0;
      v - 0.005 <= (if v < 0.0 then -m else m) <= v + 0.005
  {
  }

  /** An integer value prints as its decimal digits followed by ".00". */
  lemma Fixed2OfInteger(k: int)
    ensures Fixed2(k as real) == IntToString(k) + ".00"
  {
    var n := Cents(k as real);
    assert n == if k < 0 then -k * 100 else k * 100;
    assert n / 100 == if k < 0 then -k else k;
    assert n % 100 == 0;
    assert PadLeft(0, 2) == "00";
    if k < 0 {
      assert Fixed2(k as real) == "-" + NatToString(-k) + "." + "00";
    } else {
      assert Fixed2(k as real) == NatToString(k) + "." + "00";
    }
  }
}

=== FILE: http_income_metric.dfy ===
/** `HTTPIncomeMetric`: a request counter whose Evaluate publishes the
    number of requests since the previous Evaluate (64-bit unsigned
    difference) and moves the baseline up to the counter. */
module HttpIncomeMetric {
  import opened Text
  import opened UInt64
  import FixedPoint

  /** `counter` is bumped by producers, `baseline` is the counter as of the
      last Evaluate, `published` is the value shown. */
  datatype Rate = Rate(counter: u64, published: u64, baseline: u64)

  function New(start: u64 := 0): (m: Rate)
    ensures m.counter == start && m.baseline == start && m.published == 0
  {
    Rate(start, 0, start)
  }

  const MetricName: string := "\"HTTPS requests RPS\""

  function Name(m: Rate): (s: string)
    ensures s == MetricName
  {
    MetricName
  }

  /** The published value with two decimals. */
  function ValueString(m: Rate): (s: string)
    ensures FixedPoint.IsFixed2(s)
    ensures s == NatToString(m.published) + ".00"
  {
    FixedPoint.Fixed2RoundTrip(m.published as real);
    FixedPoint.Fixed2OfInteger(m.published);
    FixedPoint.Fixed2(m.published as real)
  }

  function Evaluate(m: Rate): (r: Rate)
    ensures r.counter == m.counter && r.baseline == m.counter
    ensures m.baseline <= m.counter ==> r.published == m.counter - m.baseline
    ensures m.counter < m.baseline ==> r.published == m.counter - m.baseline + Modulus
  {
    Rate(m.counter, Sub(m.counter, m.baseline), m.counter)
  }

  function Reset(m: Rate): (r: Rate)
    ensures r == New(0)
  {
    Rate(0, 0, 0)
  }

  /** `++m` and `m++`: the counter grows, nothing visible changes until the
      next Evaluate. */
  function Increment(m: Rate): (r: Rate)
    ensures r.published == m.published && r.baseline == m.baseline
    ensures r.counter == Wrap(m.counter + 1)
    ensures ValueString(r) == ValueString(m)
  {
    m.(counter := Add(m.counter, 1))
  }

  function IncrementTimes(m: Rate, k: nat): Rate
    decreases k
  {
    if k == 0 then m else IncrementTimes(Increment(m), k - 1)
  }

  lemma {:induction false} IncrementTimesCounter(m: Rate, k: nat)
    ensures IncrementTimes(m, k).counter == Wrap(m.counter + k)
    ensures IncrementTimes(m, k).baseline == m.baseline
    ensures IncrementTimes(m, k).published == m.published
    decreases k
  {
    CounterAfter(m, k);
    FieldsAfter(m, k);
  }

  lemma {:induction false} CounterAfter(m: Rate, k: nat)
    ensures IncrementTimes(m, k).counter == Wrap(m.counter + k)
    decreases k
  {
    CounterIsBump(m, k);
    BumpWraps(m.counter, k);
  }

  /** The counter after `k` increments, on its own. */
  function Bump(c: u64, k: nat): u64
    decreases k
  {
    if k == 0 then c else Bump(Add(c, 1), k - 1)
  }

  lemma {:induction false} CounterIsBump(m: Rate, k: nat)
    ensures IncrementTimes(m, k).counter == Bump(m.counter, k)
    decreases k
  {
    if k > 0 {
      CounterIsBump(Increment(m), k - 1);
    }
  }

  lemma {:induction false} BumpWraps(c: u64, k: nat)
    ensures Bump(c, k) == Wrap(c + k)
    decreases k
  {
    if k > 0 {
      var c1 := Add(c, 1);
      BumpWraps(c1, k - 1);
      WrapStep(c, c1, Bump(c1, k - 1), k);
    }
  }

  lemma {:induction false} FieldsAfter(m: Rate, k: nat)
    ensures IncrementTimes(m, k).baseline == m.baseline
    ensures IncrementTimes(m, k).published == m.published
    decreases k
  {
    if k > 0 {
      FieldsAfter(Increment(m), k - 1);
    }
  }

  /** K increments after an Evaluate-aligned state publish exactly K
      (modulo 2^64), also across a wrap of the counter. */
  lemma {:induction false} EvaluatePublishesIncrements(m: Rate, k: nat)
    requires m.counter == m.baseline
    ensures Evaluate(IncrementTimes(m, k)).published == Wrap(k)
    ensures k < Modulus ==> Evaluate(IncrementTimes(m, k)).published == k
  {
    IncrementTimesCounter(m, k);
    SubAddCancel(m.counter, k);
  }

  /** Construction, Evaluate and Reset all leave the counter on the baseline,
      so the increments that follow are counted from zero. */
  lemma AlignedStates(start: u64, m: Rate)
    ensures New(start).counter == New(start).baseline
    ensures Evaluate(m).counter == Evaluate(m).baseline
    ensures Reset(m).counter == Reset(m).baseline
  {
  }

  /** A second Evaluate with no increment in between publishes 0. */
  lemma EvaluateTwice(m: Rate)
    ensures Evaluate(Evaluate(m)).published == 0
    ensures ValueString(Evaluate(Evaluate(m))) == "0.00"
  {
    FixedPoint.Fixed2OfInteger(0);
  }

  /** A published count `n` renders as the digits of `n` and ".00"; a fresh
      or reset metric renders "0.00". */
  lemma ValueStringOfCount(m: Rate)
    ensures ValueString(m) == NatToString(m.published) + ".00"
    ensures ValueString(New(m.counter)) == "0.00"
    ensures ValueString(Evaluate(Reset(m))) == "0.00"
  {
    FixedPoint.Fixed2OfInteger(m.published);
    FixedPoint.Fixed2OfInteger(0);
  }
}

=== FILE: increment_metric.dfy ===
/** `IncrementMetric`: a named 64-bit counter that producers bump and the
    registry logs and zeroes. */
module IncrementMetric {
  import opened Text
  import opened UInt64
  import DefaultNames

  datatype Counter = Counter(name: string, value: u64)

  /** Default name `"IncrementMetric N"` (with the quotes) from the class-wide
      counter. */
  function CreateDefaultName(c: DefaultNames.NameCounter): (r: (string, DefaultNames.NameCounter))
    ensures r.1.issued == Add(c.issued, 1)
    ensures r.0 == "\"IncrementMetric " + NatToString(r.1.issued) + "\""
  {
    DefaultNames.Next(c, "\"IncrementMetric ", "\"")
  }

  function New(name: string, start: u64 := 0): (m: Counter)
    ensures m.name == name && m.value == start
  {
    Counter(name, start)
  }

  function Name(m: Counter): (s: string)
    ensures s == m.name
  {
    m.name
  }

  /** The counter in decimal: digits only, no sign and no fraction. */
  function ValueString(m: Counter): (s: string)
    ensures AllDigits(s) && ParseNat(s) == m.value
  {
    ParseNatToString(m.value);
    NatToString(m.value)
  }

  function Evaluate(m: Counter): (r: Counter)
    ensures r == m
  {
    m
  }

  function Reset(m: Counter): (r: Counter)
    ensures r.value == 0 && r.name == m.name
  {
    m.(value := 0)
  }

  /** `++m`: one more, wrapping at 2^64; the name is untouched. */
  function PreIncrement(m: Counter): (r: Counter)
    ensures r.name == m.name
    ensures m.value + 1 < Modulus ==> r.value == m.value + 1
    ensures m.value + 1 == Modulus ==> r.value == 0
  {
    m.(value := Add(m.value, 1))
  }

  /** `m++` forwards to `++m` and returns the incremented object itself. */
  function PostIncrement(m: Counter): (r: Counter)
    ensures r == PreIncrement(m)
    ensures r.name == m.name && r.value == Add(m.value, 1)
  {
    PreIncrement(m)
  }

  function IncrementTimes(m: Counter, k: nat): Counter
    decreases k
  {
    if k == 0 then m else IncrementTimes(PreIncrement(m), k - 1)
  }

  /** `k` increments add exactly `k` modulo 2^64, and leave the name alone. */
  lemma {:induction false} IncrementTimesAdds(m: Counter, k: nat)
    ensures IncrementTimes(m, k).name == m.name
    ensures IncrementTimes(m, k).value == Wrap(m.value + k)
    decreases k
  {
    if k > 0 {
      var n := PreIncrement(m);
      IncrementTimesAdds(n, k - 1);
      WrapStep(m.value, n.value, IncrementTimes(n, k - 1).value, k);
    }
  }

  /** A fresh counter shows its start value, and after `k` increments that
      do not overflow shows `start + k`. */
  lemma FreshCounterCounts(name: string, start: u64, k: nat)
    requires start + k < Modulus
    ensures ParseNat(ValueString(New(name, start))) == start
    ensures IncrementTimes(New(name, start), k).value == start + k
  {
    IncrementTimesAdds(New(name, start), k);
  }

  /** Evaluate before Reset changes nothing: a logged counter always ends at
      zero with its name kept, and resetting twice is resetting once. */
  lemma ResetAfterEvaluate(m: Counter)
    ensures Reset(Evaluate(m)) == New(m.name)
    ensures Reset(Reset(m)) == Reset(m)
  {
  }
}

=== FILE: metric.dfy ===
/** The `IMetric` interface over the seven metric kinds the registry owns:
    name, rendered value, Evaluate and Reset, plus the capability tags each
    kind carries. */
module Metrics {
  import opened Cardinality
  import IncrementMetric
  import HttpIncomeMetric
  import CodeTimeMetric
  import CpuUsageMetric
  import CardinalityMetricValue
  import CardinalityMetricAny
  import CardinalityMetricType
  import MyAny
  import Datum
  import FixedPoint
  import opened MetricTags

  datatype Metric =
    | Increment(counter: IncrementMetric.Counter)
    | HttpIncome(rate: HttpIncomeMetric.Rate)
    | CodeTime(timer: CodeTimeMetric.Timer)
    | CpuUsage(usage: CpuUsageMetric.Usage)
    | CardinalityValue(alts: seq<MyAny.TypeInfo>, values: Store<CardinalityMetricValue.Alt>)
    | CardinalityAny(boxes: Store<MyAny.Any<Datum.Datum>>)
    | CardinalityType(typed: Store<MyAny.Any<Datum.Datum>>)

  /** The dynamic class of a metric. Each `CardinalityMetricValue<Args...>`
      instantiation is a class of its own, told apart by the alternatives
      `Args...` of its variant, in order. */
  datatype Kind = IncrementKind | HttpIncomeKind | CodeTimeKind | CpuUsageKind
                | CardinalityValueKind(alts: seq<MyAny.TypeInfo>)
                | CardinalityAnyKind | CardinalityTypeKind

  /** The `T` of `GetMetric<T>`: a concrete metric class, the `IMetric`
      interface itself, or one of the tag classes. */
  datatype Target = Concrete(kind: Kind) | Interface | Tagged(tag: Tag)

  function KindOf(m: Metric): Kind {
    match m
    case Increment(_) => IncrementKind
    case HttpIncome(_) => HttpIncomeKind
    case CodeTime(_) => CodeTimeKind
    case CpuUsage(_) => CpuUsageKind
    case CardinalityValue(alts, _) => CardinalityValueKind(alts)
    case CardinalityAny(_) => CardinalityAnyKind
    case CardinalityType(_) => CardinalityTypeKind
  }

  /** The cardinality stores keep their key order in step with their map. */
  ghost predicate WellFormed(m: Metric) {
    match m
    case CardinalityValue(_, s) => Valid(s)
    case CardinalityAny(s) => Valid(s)
    case CardinalityType(s) => Valid(s)
    case _ => true
  }

  /** What the outside world supplies to one Evaluate or Reset: the CPU
      sample and the steady clock reading. */
  datatype Env = Env(sample: CpuUsageMetric.Sample, now: int)

  function Name(m: Metric): string {
    match m
    case Increment(c) => IncrementMetric.Name(c)
    case HttpIncome(h) => HttpIncomeMetric.Name(h)
    case CodeTime(t) => CodeTimeMetric.Name(t)
    case CpuUsage(u) => CpuUsageMetric.Name(u)
    case CardinalityValue(_, s) => CardinalityMetricValue.Name(s)
    case CardinalityAny(s) => CardinalityMetricAny.Name(s)
    case CardinalityType(s) => CardinalityMetricType.Name(s)
  }

  function ValueString(m: Metric): string
    requires WellFormed(m)
  {
    match m
    case Increment(c) => IncrementMetric.ValueString(c)
    case HttpIncome(h) => HttpIncomeMetric.ValueString(h)
    case CodeTime(t) => CodeTimeMetric.ValueString(t)
    case CpuUsage(u) => CpuUsageMetric.ValueString(u)
    case CardinalityValue(_, s) => CardinalityMetricValue.ValueString(s)
    case CardinalityAny(s) => CardinalityMetricAny.ValueString(s)
    case CardinalityType(s) => CardinalityMetricType.ValueString(s)
  }

  /** Evaluate keeps the kind, the name and well-formedness; only the CPU
      metric consults the environment. */
  function Evaluate(m: Metric, env: Env): (r: Metric)
    requires WellFormed(m)
    ensures WellFormed(r) && KindOf(r) == KindOf(m) && Name(r) == Name(m)
    ensures !m.CpuUsage? && !m.HttpIncome? ==> r == m
  {
    match m
    case Increment(c) => Increment(IncrementMetric.Evaluate(c))
    case HttpIncome(h) => HttpIncome(HttpIncomeMetric.Evaluate(h))
    case CodeTime(t) => CodeTime(CodeTimeMetric.Evaluate(t))
    case CpuUsage(u) => CpuUsage(CpuUsageMetric.Evaluate(u, env.sample, env.now))
    case CardinalityValue(alts, s) => CardinalityValue(alts, Cardinality.Evaluate(s))
    case CardinalityAny(s) => CardinalityAny(Cardinality.Evaluate(s))
    case CardinalityType(s) => CardinalityType(Cardinality.Evaluate(s))
  }

  /** Reset keeps the kind and the name; `now` holds the two clock reads a
      timer restarts from. */
  function Reset(m: Metric, now: CodeTimeMetric.Reads): (r: Metric)
    ensures WellFormed(r) && KindOf(r) == KindOf(m) && Name(r) == Name(m)
  {
    match m
    case Increment(c) => Increment(IncrementMetric.Reset(c))
    case HttpIncome(h) => HttpIncome(HttpIncomeMetric.Reset(h))
    case CodeTime(t) => CodeTime(CodeTimeMetric.Reset(t, now))
    case CpuUsage(u) => CpuUsage(CpuUsageMetric.Reset(u))
    case CardinalityValue(alts, s) => CardinalityValue(alts, Cardinality.Reset(s))
    case CardinalityAny(s) => CardinalityAny(Cardinality.Reset(s))
    case CardinalityType(s) => CardinalityType(Cardinality.Reset(s))
  }

  /** A reset state forgets everything Evaluate and earlier resets did: the
      metric a logging pass leaves behind is its plain reset state. */
  lemma ResetForgets(m: Metric, env: Env, a: CodeTimeMetric.Reads, b: CodeTimeMetric.Reads)
    requires WellFormed(m)
    ensures Reset(Evaluate(m, env), b) == Reset(m, b)
    ensures Reset(Reset(m, a), b) == Reset(m, b)
  {
  }

  /** What each scalar kind shows right after Reset: a zero in its own
      format, for the timer when its two clock reads agree. */
  lemma ResetRendersZero(m: Metric, now: CodeTimeMetric.Reads)
    ensures m.Increment? ==> ValueString(Reset(m, now)) == "0"
    ensures m.HttpIncome? ==> ValueString(Reset(m, now)) == "0.00"
    ensures m.CodeTime? && now.first == now.second ==> ValueString(Reset(m, now)) == "0 ns"
    ensures m.CpuUsage? ==> ValueString(Reset(m, now)) == "0.00%"
  {
    match m
    case Increment(c) =>
      assert Text.NatToString(0) == "0";
    case HttpIncome(h) =>
      HttpIncomeMetric.ValueStringOfCount(h);
    case CodeTime(t) =>
      CodeTimeMetric.ResetRendersGap(t, now);
    case CpuUsage(u) =>
      FixedPoint.Fixed2OfInteger(0);
      assert Text.NatToString(0) == "0";
    case _ =>
  }

  /** A reset cardinality metric reports no unique elements, echoes its
      `n_top` and lists nothing. */
  lemma ResetRendersEmptyHeader(m: Metric, now: CodeTimeMetric.Reads)
    requires m.CardinalityAny? || m.CardinalityType? || m.CardinalityValue?
    ensures ValueString(Reset(m, now)) == UniquePrefix + "0\n" + Text.IntToString(NTop(m)) + TopMarker
  {
    match m
    case CardinalityValue(_, s) =>
      ResetHeader(s);
      CardinalityMetricValue.RenderStable(Cardinality.Reset(s));
    case CardinalityAny(s) =>
      ResetHeader(s);
      CardinalityMetricAny.ResetListsNothing(s);
    case CardinalityType(s) =>
      ResetHeader(s);
      CardinalityMetricType.ResetReportsZero(s);
  }

  /** The `n_top` of a cardinality metric; 0 for the other kinds. */
  function NTop(m: Metric): int {
    match m
    case CardinalityValue(_, s) => s.nTop
    case CardinalityAny(s) => s.nTop
    case CardinalityType(s) => s.nTop
    case _ => 0
  }

  /** The most specific tag of each kind: HTTP is a server metric, the CPU
      usage a computer metric, the code timer an algorithm metric; the
      counter and the cardinality metrics carry only the root tag. */
  function TagOf(m: Metric): Tag {
    match m
    case HttpIncome(_) => Server
    case CpuUsage(_) => Computer
    case CodeTime(_) => Algo
    case _ => Default
  }

  /** `dynamic_cast<T*>(metric) != nullptr` for a tag `T`. */
  predicate HasTag(m: Metric, t: Tag) {
    IsA(TagOf(m), t)
  }

  /** `dynamic_cast<T*>(metric) != nullptr`: the metric's own class, the
      interface, and the tags the metric carries. */
  predicate CastsTo(m: Metric, t: Target) {
    match t
    case Concrete(k) => KindOf(m) == k
    case Interface => true
    case Tagged(tag) => HasTag(m, tag)
  }

  /** Which metrics each tag selects. */
  lemma TagSelection(m: Metric)
    ensures HasTag(m, Default)
    ensures HasTag(m, Server) <==> m.HttpIncome?
    ensures HasTag(m, Computer) <==> m.CpuUsage?
    ensures HasTag(m, Algo) <==> m.CodeTime?
  {
  }
}

=== FILE: metric_tags.dfy ===
/** `MetricTags`: four marker types; the three specific tags each derive
    directly from `DefaultMetricTag`. */
module MetricTags {

  datatype Tag = Default | Algo | Computer | Server

  /** The direct base of a tag; the root has none. */
  function Parent(t: Tag): (p: Tag)
    requires t != Default
    ensures p == Default
  {
    Default
  }

  /** `t` is-a `u`: the same tag or a derived one, as a `dynamic_cast` to
      `u` accepts. */
  predicate IsA(t: Tag, u: Tag)
    decreases if t == Default then 0 else 1
  {
    t == u || (t != Default && IsA(Parent(t), u))
  }

  /** The root: every tag is-a `Default`, and `Default` is-a only itself. */
  lemma DefaultIsRoot(t: Tag)
    ensures IsA(t, Default)
    ensures IsA(Default, t) <==> t == Default
  {
  }

  /** Is-a is reflexive and, among the specific tags, only reflexive: none
      of `Algo`, `Computer`, `Server` is-a another. */
  lemma SpecificTagsUnrelated(t: Tag, u: Tag)
    requires t != Default && u != Default
    ensures IsA(t, u) <==> t == u
  {
  }

  /** Is-a is a partial order. */
  lemma IsAOrder(a: Tag, b: Tag, c: Tag)
    ensures IsA(a, a)
    ensures IsA(a, b) && IsA(b, a) ==> a == b
    ensures IsA(a, b) && IsA(b, c) ==> IsA(a, c)
  {
  }
}

=== FILE: metrics_manager.dfy ===
/** `MetricsManager`: an append-only list of metrics and one asynchronous
    writer. Logging evaluates a metric, writes `timestamp name: value`, and
    resets the metric. */
module MetricsManager {
  import opened Results
  import opened Metrics
  import MetricTags
  import AsyncWriter
  import WriterUtils
  import Timestamp
  import DefaultNames
  import CodeTimeMetric
  import Text
  import UInt64
  import MyAny

  datatype Registry = Registry(metrics: seq<Metric>, writer: AsyncWriter.Writer)

  ghost predicate Valid(r: Registry) {
    AsyncWriter.Valid(r.writer) && forall i :: 0 <= i < |r.metrics| ==> WellFormed(r.metrics[i])
  }

  /** `CreateLogDefaultName`: `metricsN.log` with N the next value of the
      process-wide counter. */
  function LogDefaultName(c: DefaultNames.NameCounter): (r: (string, DefaultNames.NameCounter))
    ensures r.1.issued == UInt64.Add(c.issued, 1)
    ensures r.0 == "metrics" + Text.NatToString(r.1.issued) + ".log"
  {
    DefaultNames.Next(c, "metrics", ".log")
  }

  /** The constructor starts the writer and ignores whether that worked: the
      registry exists either way, and its writer runs only if the file opened
      and the thread launched. */
  function New(filename: string, outcome: AsyncWriter.OpenOutcome): (r: Registry)
    ensures Valid(r) && r.metrics == []
    ensures r.writer.filename == filename && r.writer.file == [] && r.writer.queue == []
    ensures AsyncWriter.IsRunning(r.writer) <==> outcome == AsyncWriter.Opened
  {
    Registry([], AsyncWriter.Start(AsyncWriter.New(filename), outcome).0)
  }

  /** The destructor stops the writer, which writes out every queued line. */
  function Close(r: Registry): (r': Registry)
    requires Valid(r)
    ensures Valid(r') && r'.metrics == r.metrics
    ensures !AsyncWriter.IsRunning(r'.writer) && r'.writer.queue == []
    ensures r'.writer.file == r.writer.file + r.writer.queue
  {
    r.(writer := AsyncWriter.Stop(r.writer))
  }

  /** `CreateMetric`: append, and hand back the new metric's index. */
  function CreateMetric(r: Registry, m: Metric): (res: (Registry, nat))
    requires Valid(r) && WellFormed(m)
    ensures Valid(res.0)
    ensures res.0.metrics == r.metrics + [m] && res.0.writer == r.writer
    ensures res.1 == |r.metrics| && res.0.metrics[res.1] == m
  {
    (r.(metrics := r.metrics + [m]), |r.metrics|)
  }

  datatype Error =
    | OutOfRange(index: nat)
    | TypeMismatch(index: nat, expected: Target, actual: Kind)

  /** `GetMetric<T>(index)`: the metric at `index` if it is a `T`; otherwise
      the out-of-range error or the type-inconsistency error naming both
      types. Nothing changes either way. */
  function GetMetric(r: Registry, index: nat, expected: Target): (res: Result<Metric, Error>)
    ensures res.Failure? && res.error.OutOfRange? <==> index >= |r.metrics|
    ensures res.Success? <==> index < |r.metrics| && CastsTo(r.metrics[index], expected)
    ensures res.Success? ==> res.value == r.metrics[index]
    ensures res.Failure? && res.error.TypeMismatch? ==>
      res.error == TypeMismatch(index, expected, KindOf(r.metrics[index])) && !CastsTo(r.metrics[index], expected)
  {
    if index >= |r.metrics| then Failure(OutOfRange(index))
    else if !CastsTo(r.metrics[index], expected) then
      Failure(TypeMismatch(index, expected, KindOf(r.metrics[index])))
    else Success(r.metrics[index])
  }

  /** What `GetMetric<T>` accepts at a valid index: the metric's own class,
      `IMetric` and the root tag always, a specific tag exactly when the
      metric carries it, and a `CardinalityMetricValue` over other
      alternatives never. */
  lemma GetMetricTargets(r: Registry, index: nat, tag: MetricTags.Tag, alts: seq<MyAny.TypeInfo>)
    requires index < |r.metrics|
    ensures GetMetric(r, index, Concrete(KindOf(r.metrics[index]))) == Success(r.metrics[index])
    ensures GetMetric(r, index, Interface) == Success(r.metrics[index])
    ensures GetMetric(r, index, Tagged(MetricTags.Default)) == Success(r.metrics[index])
    ensures GetMetric(r, index, Tagged(tag)).Success? <==> HasTag(r.metrics[index], tag)
    ensures r.metrics[index].CardinalityValue? && alts != r.metrics[index].alts ==>
      GetMetric(r, index, Concrete(CardinalityValueKind(alts))) ==
        Failure(TypeMismatch(index, Concrete(CardinalityValueKind(alts)), CardinalityValueKind(r.metrics[index].alts)))
  {
    TagSelection(r.metrics[index]);
  }

  /** The inputs one logging step of one metric draws from the outside world:
      the environment of Evaluate, the wall clock for the timestamp, and the
      two clock reads Reset restarts a timer with. */
  datatype Clock = Clock(env: Env, local: Timestamp.LocalTime, epochMillis: nat,
                         resetAt: CodeTimeMetric.Reads)

  /** The line logging `m` produces. */
  function Line(m: Metric, c: Clock): string
    requires WellFormed(m)
  {
    var e := Evaluate(m, c.env);
    WriterUtils.MetricLine(Timestamp.Render(c.local, c.epochMillis), Name(e), ValueString(e))
  }

  predicate Accepting(w: AsyncWriter.Writer) {
    w.running && !w.stopRequested
  }

  /** Evaluate, write, Reset the metric at `i`. The write's result is
      ignored: the metric is reset even when the line was refused. */
  function LogAt(r: Registry, i: nat, c: Clock): (r': Registry)
    requires Valid(r) && i < |r.metrics|
    ensures Valid(r')
    ensures r'.metrics == r.metrics[i := Reset(r.metrics[i], c.resetAt)]
    ensures Accepting(r.writer) ==> r'.writer == r.writer.(queue := r.writer.queue + [Line(r.metrics[i], c)])
    ensures !Accepting(r.writer) ==> r'.writer == r.writer
  {
    var m := r.metrics[i];
    var e := Evaluate(m, c.env);
    var (w, _) := WriterUtils.WriteMetricWithTimestamp(r.writer, c.local, c.epochMillis, Name(e), ValueString(e));
    ResetForgets(m, c.env, c.resetAt, c.resetAt);
    Registry(r.metrics[i := Reset(e, c.resetAt)], w)
  }

  /** `Log(index)`. */
  function Log(r: Registry, index: nat, c: Clock): (res: Result<Registry, Error>)
    requires Valid(r)
    ensures res.Failure? <==> index >= |r.metrics|
    ensures res.Failure? ==> res.error == OutOfRange(index)
    ensures res.Success? ==> Valid(res.value) && res.value == LogAt(r, index, c)
  {
    if index >= |r.metrics| then Failure(OutOfRange(index)) else Success(LogAt(r, index, c))
  }

  /** The indices from `from` on whose metric carries `tag`, ascending. */
  function Filter(ms: seq<Metric>, tag: MetricTags.Tag, from: nat): (idx: seq<nat>)
    ensures forall i :: i in idx <==> from <= i < |ms| && HasTag(ms[i], tag)
    ensures forall k :: 0 <= k < |idx| ==> from <= idx[k] < |ms|
    ensures forall a, b :: 0 <= a < b < |idx| ==> idx[a] < idx[b]
    decreases |ms| - from
  {
    if from >= |ms| then []
    else
      var rest := Filter(ms, tag, from + 1);
      if HasTag(ms[from], tag) then [from] + rest else rest
  }

  predicate InRange(idx: seq<nat>, n: nat) {
    forall k :: 0 <= k < |idx| ==> idx[k] < n
  }

  predicate Distinct(idx: seq<nat>) {
    forall a, b :: 0 <= a < b < |idx| ==> idx[a] != idx[b]
  }

  /** Log the metrics at `idx`, one after another; `clocks(i)` is what the
      step for the metric at `i` reads. */
  function LogEach(r: Registry, idx: seq<nat>, clocks: nat -> Clock): (r': Registry)
    requires Valid(r) && InRange(idx, |r.metrics|)
    ensures Valid(r') && |r'.metrics| == |r.metrics|
    decreases |idx|
  {
    if |idx| == 0 then r else LogEach(LogAt(r, idx[0], clocks(idx[0])), idx[1..], clocks)
  }

  /** `Log<Tag>()`: select the tagged metrics as the list stands when the
      pass starts, then log each in insertion order. */
  function LogTagged(r: Registry, tag: MetricTags.Tag, clocks: nat -> Clock): (r': Registry)
    requires Valid(r)
    ensures Valid(r') && |r'.metrics| == |r.metrics|
  {
    LogEach(r, Filter(r.metrics, tag, 0), clocks)
  }

  /** The lines a pass over `idx` should write, read off the metrics as they
      were before the pass. */
  function Lines(ms: seq<Metric>, idx: seq<nat>, clocks: nat -> Clock): seq<string>
    requires InRange(idx, |ms|) && forall i :: 0 <= i < |ms| ==> WellFormed(ms[i])
    decreases |idx|
  {
    if |idx| == 0 then [] else [Line(ms[idx[0]], clocks(idx[0]))] + Lines(ms, idx[1..], clocks)
  }

  lemma {:induction false} LinesFrame(ms: seq<Metric>, ms': seq<Metric>, idx: seq<nat>, clocks: nat -> Clock)
    requires |ms| == |ms'| && InRange(idx, |ms|)
    requires forall i :: 0 <= i < |ms| ==> WellFormed(ms[i]) && WellFormed(ms'[i])
    requires forall k :: 0 <= k < |idx| ==> ms[idx[k]] == ms'[idx[k]]
    ensures Lines(ms, idx, clocks) == Lines(ms', idx, clocks)
    decreases |idx|
  {
    if |idx| > 0 {
      LinesFrame(ms, ms', idx[1..], clocks);
    }
  }

  /** Membership in a list of distinct indices splits into its head and its
      tail, and the head does not recur in the tail. */
  lemma HeadTail(idx: seq<nat>, i: nat)
    requires |idx| > 0 && Distinct(idx)
    ensures Distinct(idx[1..]) && idx[0] !in idx[1..]
    ensures i in idx <==> i == idx[0] || i in idx[1..]
  {
    var tail := idx[1..];
    forall k | 0 <= k < |tail| ensures tail[k] != idx[0] {
      assert tail[k] == idx[k + 1];
    }
    if i in idx && i != idx[0] {
      var k :| 0 <= k < |idx| && idx[k] == i;
      assert tail[k - 1] == i;
    }
  }

  /** A pass over distinct indices resets exactly those metrics and leaves the
      others as they were. */
  lemma {:induction false} LogEachMetrics(r: Registry, idx: seq<nat>, clocks: nat -> Clock, i: nat)
    requires Valid(r) && InRange(idx, |r.metrics|) && Distinct(idx) && i < |r.metrics|
    ensures i in idx ==> LogEach(r, idx, clocks).metrics[i] == Reset(r.metrics[i], clocks(i).resetAt)
    ensures i !in idx ==> LogEach(r, idx, clocks).metrics[i] == r.metrics[i]
    decreases |idx|
  {
    if |idx| > 0 {
      var i0 := idx[0];
      var next := LogAt(r, i0, clocks(i0));
      var tail := idx[1..];
      HeadTail(idx, i);
      assert InRange(tail, |next.metrics|);
      LogEachMetrics(next, tail, clocks, i);
      if i == i0 {
        ResetForgets(r.metrics[i], clocks(i).env, clocks(i).resetAt, clocks(i).resetAt);
      }
    }
  }

  /** A writer that refuses lines is left untouched by a whole pass. */
  lemma {:induction false} LogEachRefused(r: Registry, idx: seq<nat>, clocks: nat -> Clock)
    requires Valid(r) && InRange(idx, |r.metrics|) && !Accepting(r.writer)
    ensures LogEach(r, idx, clocks).writer == r.writer
    decreases |idx|
  {
    if |idx| > 0 {
      var next := LogAt(r, idx[0], clocks(idx[0]));
      assert InRange(idx[1..], |next.metrics|);
      LogEachRefused(next, idx[1..], clocks);
    }
  }

  /** The first step of a pass changes no metric the rest of the pass will
      read. */
  lemma FirstStepFrame(r: Registry, idx: seq<nat>, clocks: nat -> Clock)
    requires Valid(r) && InRange(idx, |r.metrics|) && Distinct(idx) && |idx| > 0
    ensures var next := LogAt(r, idx[0], clocks(idx[0]));
      InRange(idx[1..], |next.metrics|) && Distinct(idx[1..])
      && Lines(r.metrics, idx[1..], clocks) == Lines(next.metrics, idx[1..], clocks)
  {
    var next := LogAt(r, idx[0], clocks(idx[0]));
    var tail := idx[1..];
    HeadTail(idx, idx[0]);
    assert InRange(tail, |next.metrics|);
    forall k | 0 <= k < |tail| ensures r.metrics[tail[k]] == next.metrics[tail[k]] {
      assert tail[k] in tail;
    }
    LinesFrame(r.metrics, next.metrics, tail, clocks);
  }

  /** While the writer accepts lines, a pass over distinct indices queues one
      line per index in order, each rendered from the metric's state before
      the pass. */
  lemma {:induction false} LogEachWriter(r: Registry, idx: seq<nat>, clocks: nat -> Clock)
    requires Valid(r) && InRange(idx, |r.metrics|) && Distinct(idx) && Accepting(r.writer)
    ensures LogEach(r, idx, clocks).writer == r.writer.(queue := r.writer.queue + Lines(r.metrics, idx, clocks))
    decreases |idx|
  {
    if |idx| > 0 {
      var i0 := idx[0];
      var next := LogAt(r, i0, clocks(i0));
      var tail := idx[1..];
      FirstStepFrame(r, idx, clocks);
      LogEachWriter(next, tail, clocks);
      var head := Line(r.metrics[i0], clocks(i0));
      var rest := Lines(r.metrics, tail, clocks);
      assert Lines(r.metrics, idx, clocks) == [head] + rest;
      assert LogEach(r, idx, clocks) == LogEach(next, tail, clocks);
      QueueChain(r.writer, next.writer, LogEach(next, tail, clocks).writer, head, rest);
    }
  }

  lemma QueueChain(w0: AsyncWriter.Writer, w1: AsyncWriter.Writer, w2: AsyncWriter.Writer, head: string, rest: seq<string>)
    requires w1 == w0.(queue := w0.queue + [head]) && w2 == w1.(queue := w1.queue + rest)
    ensures w2 == w0.(queue := w0.queue + ([head] + rest))
  {
    assert w0.queue + [head] + rest == w0.queue + ([head] + rest);
  }

  /** `Log<Tag>()` against its reference: every metric carrying `tag` is
      reset, every other metric is untouched, and a running writer receives
      one line per tagged metric in insertion order. */
  lemma LogTaggedSpec(r: Registry, tag: MetricTags.Tag, clocks: nat -> Clock)
    requires Valid(r)
    ensures var r' := LogTagged(r, tag, clocks); var idx := Filter(r.metrics, tag, 0);
      && (forall i :: 0 <= i < |r.metrics| && HasTag(r.metrics[i], tag) ==> r'.metrics[i] == Reset(r.metrics[i], clocks(i).resetAt))
      && (forall i :: 0 <= i < |r.metrics| && !HasTag(r.metrics[i], tag) ==> r'.metrics[i] == r.metrics[i])
      && (Accepting(r.writer) ==> r'.writer == r.writer.(queue := r.writer.queue + Lines(r.metrics, idx, clocks)))
      && (!Accepting(r.writer) ==> r'.writer == r.writer)
  {
    var idx := Filter(r.metrics, tag, 0);
    var r' := LogTagged(r, tag, clocks);
    forall i | 0 <= i < |r.metrics|
      ensures HasTag(r.metrics[i], tag) ==> r'.metrics[i] == Reset(r.metrics[i], clocks(i).resetAt)
      ensures !HasTag(r.metrics[i], tag) ==> r'.metrics[i] == r.metrics[i]
    {
      LogEachMetrics(r, idx, clocks, i);
    }
    if Accepting(r.writer) {
      LogEachWriter(r, idx, clocks);
    } else {
      LogEachRefused(r, idx, clocks);
    }
  }

  /** The root tag selects every metric, in insertion order. */
  lemma {:induction false} FilterAll(ms: seq<Metric>, from: nat)
    requires from <= |ms|
    ensures Filter(ms, MetricTags.Default, from) == seq(|ms| - from, k => from + k)
    decreases |ms| - from
  {
    if from < |ms| {
      TagSelection(ms[from]);
      FilterAll(ms, from + 1);
      CountUp(from, |ms|);
    }
  }

  lemma CountUp(from: nat, n: nat)
    requires from < n
    ensures seq(n - from, k => from + k) == [from] + seq(n - (from + 1), k => from + 1 + k)
  {
    var xs := seq(n - from, k => from + k);
    var ys := [from] + seq(n - (from + 1), k => from + 1 + k);
    assert |xs| == |ys|;
    forall k | 0 <= k < |xs| ensures xs[k] == ys[k] {
      if k > 0 {
        assert ys[k] == from + 1 + (k - 1);
      }
    }
  }

  /** A pass over an empty registry writes nothing. */
  lemma EmptyPass(r: Registry, tag: MetricTags.Tag, clocks: nat -> Clock)
    requires Valid(r) && r.metrics == []
    ensures LogTagged(r, tag, clocks) == r
  {
  }
}

=== FILE: my_any.dfy ===
/** `MyAny`: a type-erased box that is empty or holds one value together
    with the identity of its type. The value semantics of Dafny play the
    part of the source's deep copies (`clone`). */
module MyAny {
  import opened Results

  /** What `typeid` reveals of a type: its implementation name (`name()`) and
      the demangled spelling. Two types are the same type iff their
      `TypeInfo`s are equal. */
  datatype TypeInfo = TypeInfo(mangled: string, demangled: string)

  /** `typeid(void)`, the type reported by an empty box. */
  const VoidType: TypeInfo := TypeInfo("v", "void")

  datatype Any<V> = Empty | Val(typ: TypeInfo, value: V)

  datatype CastError = BadAnyCast

  /** The default constructor. */
  function Default<V>(): (a: Any<V>)
    ensures !HasValue(a) && Type(a) == VoidType
  {
    Empty
  }

  /** The converting constructor from a value of type `t`. */
  function Box<V>(t: TypeInfo, v: V): (a: Any<V>)
    ensures HasValue(a) && Type(a) == t
    ensures Cast(a, t) == Success(v)
  {
    Val(t, v)
  }

  function HasValue<V>(a: Any<V>): bool {
    a.Val?
  }

  function Type<V>(a: Any<V>): (t: TypeInfo)
    ensures !HasValue(a) ==> t == VoidType
    ensures HasValue(a) ==> t == a.typ
  {
    if a.Val? then a.typ else VoidType
  }

  /** `reset`: whatever the box held, it is empty afterwards. */
  function Reset<V>(a: Any<V>): (r: Any<V>)
    ensures !HasValue(r) && Type(r) == VoidType
  {
    Empty
  }

  /** `operator==` as the source decides it: two empties are equal, an empty
      and a full box are not, boxes of different types are not, and boxes of
      the same type compare their values. */
  function Equals<V(==)>(a: Any<V>, b: Any<V>): bool {
    if !HasValue(a) && !HasValue(b) then true
    else if !HasValue(a) || !HasValue(b) then false
    else if Type(a) != Type(b) then false
    else a.value == b.value
  }

  /** The source's equality is exactly equality of the boxed (type, value)
      pairs, hence an equivalence; in particular it is symmetric and a box
      equals itself. */
  lemma EqualsIsIdentity<V>(a: Any<V>, b: Any<V>)
    ensures Equals(a, b) <==> a == b
    ensures Equals(a, b) == Equals(b, a)
    ensures Equals(a, a)
  {
  }

  /** The four rules of `operator==`. */
  lemma EqualsRules<V>(t: TypeInfo, u: TypeInfo, v: V, w: V)
    ensures Equals<V>(Empty, Empty)
    ensures !Equals(Empty, Val(t, v)) && !Equals(Val(t, v), Empty)
    ensures t != u ==> !Equals(Val(t, v), Val(u, w))
    ensures Equals(Val(t, v), Val(t, w)) <==> v == w
  {
  }

  /** Copy construction and copy assignment (self-assignment included):
      the target ends up holding what the source holds, and the source is
      left as it was. */
  function CopyAssign<V>(target: Any<V>, source: Any<V>): (r: (Any<V>, Any<V>))
    ensures r.0 == source && r.1 == source
  {
    (source, source)
  }

  /** Move construction and move assignment from a distinct box: the target
      takes over the contents and the source is left empty. */
  function MoveAssign<V>(target: Any<V>, source: Any<V>): (r: (Any<V>, Any<V>))
    ensures r.0 == source && !HasValue(r.1)
  {
    (source, Empty)
  }

  /** `MyAnyCast<T>`: succeeds iff the box is full and holds exactly type `t`,
      yielding the held value; otherwise `bad_any_cast`. */
  function Cast<V>(a: Any<V>, t: TypeInfo): (r: Result<V, CastError>)
    ensures r.Success? <==> HasValue(a) && Type(a) == t
    ensures r.Success? ==> r.value == a.value
  {
    if !HasValue(a) || Type(a) != t then Failure(BadAnyCast) else Success(a.value)
  }

  /** Assigning a box of another type replaces type and value: casts to the
      new type succeed with the new value and casts to the old type fail. */
  lemma AssignOtherType<V>(t: TypeInfo, v: V, u: TypeInfo, w: V)
    requires t != u
    ensures var (target, _) := CopyAssign(Val(t, v), Val(u, w));
      && Type(target) == u
      && Cast(target, u) == Success(w)
      && Cast(target, t) == Failure(BadAnyCast)
  {
  }
}

=== FILE: results.dfy ===
/** Failure-carrying results shared by the model: an optional value and a
    value-or-error outcome, used wherever the source throws or returns a flag. */
module Results {

  datatype Option<+T> = None | Some(value: T)

  datatype Result<+R, +E> = Success(value: R) | Failure(error: E) {
    predicate IsFailure() {
      Failure?
    }
  }
}

=== FILE: text.dfy ===
/** Decimal rendering of integers as `std::to_string` and `operator<<`
    produce it, together with the parser that inverts it. */
module Text {

  predicate IsDigit(c: char) {
    '0' <= c <= '9'
  }

  predicate AllDigits(s: string) {
    forall i :: 0 <= i < |s| ==> IsDigit(s[i])
  }

  function DigitChar(d: nat): (c: char)
    requires d < 10
    ensures IsDigit(c)
    ensures c as int - '0' as int == d
  {
    (d + '0' as int) as char
  }

  function DigitValue(c: char): (d: nat)
    requires IsDigit(c)
    ensures d < 10
  {
    c as int - '0' as int
  }

  /** Digits of `n` without sign or leading zeros. */
  function NatToString(n: nat): (s: string)
    ensures |s| >= 1
    ensures AllDigits(s)
    ensures n < 10 <==> |s| == 1
    ensures s[0] == '0' ==> n == 0
    decreases n
  {
    if n < 10 then [DigitChar(n)] else NatToString(n / 10) + [DigitChar(n % 10)]
  }

  /** `std::to_string` of a signed integer: a minus sign for negatives. */
  function IntToString(i: int): (s: string)
    ensures i < 0 <==> (|s| > 0 && s[0] == '-')
    ensures i >= 0 ==> AllDigits(s)
  {
    if i < 0 then "-" + NatToString(-i) else NatToString(i)
  }

  /** Value of a string of decimal digits; leading zeros are allowed. */
  function ParseNat(s: string): nat
    requires AllDigits(s)
    decreases |s|
  {
    if |s| == 0 then 0 else 10 * ParseNat(s[..|s| - 1]) + DigitValue(s[|s| - 1])
  }

  function ParseInt(s: string): int
    requires |s| > 0
    requires s[0] == '-' ==> AllDigits(s[1..])
    requires s[0] != '-' ==> AllDigits(s)
  {
    if s[0] == '-' then 0 - ParseNat(s[1..]) as int else ParseNat(s)
  }

  lemma {:induction false} ParseNatToString(n: nat)
    ensures ParseNat(NatToString(n)) == n
    decreases n
  {
    if n >= 10 {
      var s := NatToString(n);
      assert s[..|s| - 1] == NatToString(n / 10);
      ParseNatToString(n / 10);
    }
  }

  lemma ParseIntToString(i: int)
    ensures |IntToString(i)| > 0 && ParseInt(IntToString(i)) == i
  {
    if i < 0 {
      var digits := NatToString(-i);
      assert IntToString(i) == "-" + digits;
      assert ("-" + digits)[1..] == digits;
      ParseNatToString(-i);
      ParseNegative(digits);
    } else {
      ParseNatToString(i);
    }
  }

  /** A minus sign in front of digits negates their value. */
  lemma ParseNegative(digits: string)
    requires AllDigits(digits)
    ensures ParseInt("-" + digits) == 0 - ParseNat(digits) as int
  {
    assert ("-" + digits)[1..] == digits;
  }

  /** Distinct numbers render as distinct strings. */
  lemma NatToStringInjective(a: nat, b: nat)
    ensures NatToString(a) == NatToString(b) <==> a == b
  {
    if NatToString(a) == NatToString(b) {
      ParseNatToString(a);
      ParseNatToString(b);
    }
  }

  function Zeros(k: nat): (s: string)
    ensures |s| == k
    ensures forall i :: 0 <= i < k ==> s[i] == '0'
  {
    seq(k, _ => '0')
  }

  /** `std::setfill('0') << std::setw(w) << n`: left-padded with zeros to
      width `w`; wider numbers are printed in full. */
  function PadLeft(n: nat, w: nat): (s: string)
    ensures AllDigits(s)
    ensures |s| == if |NatToString(n)| < w then w else |NatToString(n)|
  {
    var d := NatToString(n);
    if |d| < w then Zeros(w - |d|) + d else d
  }

  /** Leading zeros do not change a decimal value. */
  lemma {:induction false} ParseZerosPrefix(k: nat, d: string)
    requires AllDigits(d)
    ensures AllDigits(Zeros(k) + d)
    ensures ParseNat(Zeros(k) + d) == ParseNat(d)
    decreases |d|
  {
    var s := Zeros(k) + d;
    assert AllDigits(s) by {
      forall i | 0 <= i < |s| ensures IsDigit(s[i]) {
        if i < k { assert s[i] == '0'; } else { assert s[i] == d[i - k]; }
      }
    }
    if |d| == 0 {
      ParseZerosOnly(k);
      assert s == Zeros(k);
    } else {
      assert s[..|s| - 1] == Zeros(k) + d[..|d| - 1];
      ParseZerosPrefix(k, d[..|d| - 1]);
    }
  }

  lemma {:induction false} ParseZerosOnly(k: nat)
    ensures AllDigits(Zeros(k))
    ensures ParseNat(Zeros(k)) == 0
    decreases k
  {
    if k > 0 {
      assert Zeros(k)[..k - 1] == Zeros(k - 1);
      ParseZerosOnly(k - 1);
    }
  }

  /** Padding keeps the value and reaches exactly the width for numbers
      that fit. */
  lemma PadLeftValue(n: nat, w: nat)
    ensures ParseNat(PadLeft(n, w)) == n
  {
    var d := NatToString(n);
    ParseNatToString(n);
    if |d| < w {
      assert PadLeft(n, w) == Zeros(w - |d|) + d;
      ParseZerosPrefix(w - |d|, d);
    } else {
      assert PadLeft(n, w) == d;
    }
  }

  lemma {:induction false} NatToStringLength(n: nat, w: nat)
    requires n < Pow10(w)
    ensures |NatToString(n)| <= if w == 0 then 1 else w
    decreases n
  {
    if n >= 10 {
      assert Pow10(0) == 1 && Pow10(1) == 10;
      assert w >= 2;
      Pow10Div(n, w);
      NatToStringLength(n / 10, w - 1);
    }
  }

  lemma Pow10Div(n: nat, w: nat)
    requires w >= 1
    requires n < Pow10(w)
    ensures n / 10 < Pow10(w - 1)
  {
  }

  function Pow10(w: nat): (p: nat)
    ensures p >= 1
  {
    if w == 0 then 1 else 10 * Pow10(w - 1)
  }

  lemma PadLeftWidth(n: nat, w: nat)
    requires w >= 1
    requires n < Pow10(w)
    ensures |PadLeft(n, w)| == w
  {
    NatToStringLength(n, w);
  }

  predicate StartsWith(s: string, prefix: string) {
    |prefix| <= |s| && s[..|prefix|] == prefix
  }

  predicate EndsWith(s: string, suffix: string) {
    |suffix| <= |s| && s[|s| - |suffix|..] == suffix
  }

  /** The two halves of a concatenation are its slices. */
  lemma Halves(a: string, b: string)
    ensures (a + b)[..|a|] == a && (a + b)[|a|..] == b
  {
  }

  lemma ConcatEnds(a: string, b: string, c: string)
    requires EndsWith(b, c)
    ensures StartsWith(a + b, a) && EndsWith(a + b, c)
  {
    assert (a + b)[..|a|] == a;
    assert (a + b)[|a + b| - |c|..] == b[|b| - |c|..];
  }
}

=== FILE: timestamp.dfy ===
/** `GetCurrentTimestamp`: the local wall-clock time rendered as
    `YYYY-MM-DD HH:MM:SS.mmm`. The clock and the time-zone conversion are
    inputs: `local` is what `localtime` yields, `epochMillis` the system
    clock in milliseconds since the epoch. */
module Timestamp {
  import opened Text

  datatype LocalTime = LocalTime(year: nat, month: nat, day: nat, hour: nat, minute: nat, second: nat)

  /** The ranges `localtime` produces; a leap second may show as 60. */
  predicate WellFormed(t: LocalTime) {
    1 <= t.month <= 12 && 1 <= t.day <= 31 && t.hour < 24 && t.minute < 60 && t.second <= 60
  }

  /** `%Y-%m-%d %H:%M:%S`: the year in full, the other fields as two
      digits, then `.` and the milliseconds within the second padded to three
      digits. */
  function Render(local: LocalTime, epochMillis: nat): string {
    NatToString(local.year) + "-" + PadLeft(local.month, 2) + "-" + PadLeft(local.day, 2)
    + " " + PadLeft(local.hour, 2) + ":" + PadLeft(local.minute, 2) + ":" + PadLeft(local.second, 2)
    + "." + PadLeft(epochMillis % 1000, 3)
  }

  lemma FourDigitYear(y: nat)
    requires 1000 <= y < 10000
    ensures |NatToString(y)| == 4
  {
    assert |NatToString(y / 10 / 10 / 10)| == 1;
    assert |NatToString(y / 10 / 10)| == 2;
    assert |NatToString(y / 10)| == 3;
  }

  lemma TwoDigits(n: nat)
    requires n < 100
    ensures |PadLeft(n, 2)| == 2 && ParseNat(PadLeft(n, 2)) == n
  {
    assert Pow10(2) == 100;
    PadLeftWidth(n, 2);
    PadLeftValue(n, 2);
  }

  /** For a four-digit year the stamp is 23 characters with the separators in
      fixed places, and every field reads back as the value it renders. */
  lemma {:induction false} RenderLayout(local: LocalTime, epochMillis: nat)
    requires WellFormed(local) && 1000 <= local.year < 10000
    ensures var ts := Render(local, epochMillis);
      |ts| == 23
      && ts[4] == '-' && ts[7] == '-' && ts[10] == ' '
      && ts[13] == ':' && ts[16] == ':' && ts[19] == '.'
      && AllDigits(ts[0..4]) && ParseNat(ts[0..4]) == local.year
      && AllDigits(ts[5..7]) && ParseNat(ts[5..7]) == local.month
      && AllDigits(ts[8..10]) && ParseNat(ts[8..10]) == local.day
      && AllDigits(ts[11..13]) && ParseNat(ts[11..13]) == local.hour
      && AllDigits(ts[14..16]) && ParseNat(ts[14..16]) == local.minute
      && AllDigits(ts[17..19]) && ParseNat(ts[17..19]) == local.second
      && AllDigits(ts[20..23]) && ParseNat(ts[20..23]) == epochMillis % 1000
  {
    var y := NatToString(local.year);
    FourDigitYear(local.year);
    ParseNatToString(local.year);
    TwoDigits(local.month);
    TwoDigits(local.day);
    TwoDigits(local.hour);
    TwoDigits(local.minute);
    TwoDigits(local.second);
    var ms := epochMillis % 1000;
    assert Pow10(3) == 1000;
    PadLeftWidth(ms, 3);
    PadLeftValue(ms, 3);
    Layout(y, PadLeft(local.month, 2), PadLeft(local.day, 2), PadLeft(local.hour, 2),
      PadLeft(local.minute, 2), PadLeft(local.second, 2), PadLeft(ms, 3));
  }

  /** Where each field sits in `Y-M-D h:m:s.f` when the fields have widths
      4, 2, 2, 2, 2, 2 and 3. */
  lemma Layout(y: string, mo: string, d: string, h: string, mi: string, s: string, f: string)
    requires |y| == 4 && |mo| == 2 && |d| == 2 && |h| == 2 && |mi| == 2 && |s| == 2 && |f| == 3
    ensures var ts := y + "-" + mo + "-" + d + " " + h + ":" + mi + ":" + s + "." + f;
      |ts| == 23
      && ts[4] == '-' && ts[7] == '-' && ts[10] == ' '
      && ts[13] == ':' && ts[16] == ':' && ts[19] == '.'
      && ts[0..4] == y && ts[5..7] == mo && ts[8..10] == d && ts[11..13] == h
      && ts[14..16] == mi && ts[17..19] == s && ts[20..23] == f
  {
    var ts := y + "-" + mo + "-" + d + " " + h + ":" + mi + ":" + s + "." + f;
    assert ts[0..4] == y;
    assert ts[5..7] == mo;
    assert ts[8..10] == d;
    assert ts[11..13] == h;
    assert ts[14..16] == mi;
    assert ts[17..19] == s;
    assert ts[20..23] == f;
  }

  /** Two instants in the same local second differ only in the last three
      characters. */
  lemma SameSecondSamePrefix(local: LocalTime, a: nat, b: nat)
    requires WellFormed(local) && 1000 <= local.year < 10000
    ensures Render(local, a)[..20] == Render(local, b)[..20]
    ensures Render(local, a) == Render(local, b) <==> a % 1000 == b % 1000
  {
    RenderLayout(local, a);
    RenderLayout(local, b);
    var ra := Render(local, a);
    var rb := Render(local, b);
    assert ra == ra[..20] + PadLeft(a % 1000, 3);
    assert rb == rb[..20] + PadLeft(b % 1000, 3);
    if ra == rb {
      assert ra[20..23] == rb[20..23];
    }
  }
}

=== FILE: uint64.dfy ===
/** The `unsigned long long` arithmetic of the source: values in [0, 2^64)
    with wrap-around on overflow and on subtraction below zero. */
module UInt64 {

  const Modulus: int := 0x1_0000_0000_0000_0000

  type u64 = x: int | 0 <= x < Modulus

  /** Reduces an exact integer into the 64-bit range, as C++ unsigned
      arithmetic does. */
  function Wrap(x: int): (r: u64)
    ensures 0 <= x < Modulus ==> r == x
    ensures (r - x) % Modulus == 0
  {
    x % Modulus
  }

  function Add(a: u64, b: u64): (r: u64)
    ensures a + b < Modulus ==> r == a + b
    ensures a + b >= Modulus ==> r == a + b - Modulus
  {
    Wrap(a + b)
  }

  function Sub(a: u64, b: u64): (r: u64)
    ensures b <= a ==> r == a - b
    ensures a < b ==> r == a - b + Modulus
  {
    Wrap(a - b)
  }

  /** Subtraction undoes addition modulo 2^64, whatever wrapped. */
  lemma SubAddCancel(a: u64, k: int)
    requires 0 <= k
    ensures Sub(Wrap(a + k), a) == Wrap(k)
  {
    var q := (a + k) / Modulus;
    assert Wrap(a + k) == a + k - q * Modulus;
    assert Wrap(a + k) - a == k - q * Modulus;
    WrapShift(k, -q);
  }

  lemma WrapShift(x: int, q: int)
    ensures Wrap(x + q * Modulus) == Wrap(x)
  {
  }

  /** One increment followed by k - 1 more is k increments. */
  lemma WrapStep(c: int, c1: int, ck: int, k: int)
    requires k > 0 && c1 == Wrap(c + 1) && ck == Wrap(c1 + (k - 1))
    ensures ck == Wrap(c + k)
  {
    WrapSum(c + 1, k - 1);
    assert c + 1 + (k - 1) == c + k;
  }

  /** Adding after wrapping is wrapping after adding. */
  lemma WrapSum(x: int, k: int)
    ensures Wrap(Wrap(x) + k) == Wrap(x + k)
  {
    var q := x / Modulus;
    assert Wrap(x) == x - q * Modulus;
    WrapShift(x + k, -q);
  }
}

=== FILE: writer_utils.dfy ===
/** `WriterUtils`: line formatting in front of `AsyncWriter.Write`. Values
    arrive already rendered as text (`operator<<` for the last argument of a
    format, `std::to_string` for the others). */
module WriterUtils {
  import opened Results
  import opened Text
  import AsyncWriter
  import Timestamp

  /** `{}` starts at position `i` of `s`. */
  predicate PlaceholderAt(s: string, i: int) {
    0 <= i && i + 1 < |s| && s[i] == '{' && s[i + 1] == '}'
  }

  predicate NoPlaceholder(s: string) {
    forall j :: 0 <= j < |s| - 1 ==> !PlaceholderAt(s, j)
  }

  /** `format.find("{}")`: the first placeholder, or None for `npos`. */
  function Find(s: string): (r: Option<nat>)
    ensures r.Some? ==> PlaceholderAt(s, r.value)
    ensures r.Some? ==> forall j :: 0 <= j < r.value ==> !PlaceholderAt(s, j)
    ensures r.None? <==> NoPlaceholder(s)
    decreases |s|
  {
    if |s| < 2 then None
    else if s[0] == '{' && s[1] == '}' then assert PlaceholderAt(s, 0); Some(0)
    else
      assert !PlaceholderAt(s, 0);
      assert forall j :: 1 <= j < |s| ==> (PlaceholderAt(s, j) <==> PlaceholderAt(s[1..], j - 1));
      match Find(s[1..])
      case None => None
      case Some(p) => assert PlaceholderAt(s, p + 1); Some(p + 1)
  }

  /** The single-argument `WriteFormattedImpl`: the first `{}` becomes the
      value; without a placeholder the format is kept as it is. */
  function FormatOne(format: string, value: string): (r: string)
    ensures Find(format).None? ==> r == format
    ensures Find(format).Some? ==> |r| == |format| - 2 + |value|
    ensures Find(format).Some? ==>
      r == format[..Find(format).value] + value + format[Find(format).value + 2..]
  {
    match Find(format)
    case None => format
    case Some(p) => format[..p] + value + format[p + 2..]
  }

  /** The variadic `WriteFormattedImpl`: substitute the first argument into
      the first `{}` and format the whole resulting string again with the
      remaining arguments; a format without `{}` ends the substitution and
      drops the arguments left. The source has no overload without
      arguments. */
  function FormatMany(format: string, args: seq<string>): (r: string)
    requires |args| >= 1
    ensures NoPlaceholder(format) ==> r == format
    decreases |args|
  {
    if |args| == 1 then FormatOne(format, args[0])
    else match Find(format)
      case None => format
      case Some(p) => FormatMany(format[..p] + args[0] + format[p + 2..], args[1..])
  }

  /** A reference reading of `{}` formatting: walk the format once from
      left to right, filling placeholders in order, never looking into the
      text an argument brought in. */
  function Scan(format: string, args: seq<string>): string
    requires |args| >= 1
    decreases |args|
  {
    match Find(format)
    case None => format
    case Some(p) =>
      format[..p] + args[0] + (if |args| == 1 then format[p + 2..] else Scan(format[p + 2..], args[1..]))
  }

  predicate BraceFree(s: string) {
    forall i :: 0 <= i < |s| ==> s[i] != '{' && s[i] != '}'
  }

  /** Arguments that `std::to_string` of a number can produce: never empty,
      never a brace. */
  predicate NumericText(s: string) {
    |s| > 0 && BraceFree(s)
  }

  /** Prefixing text without a placeholder, that does not end in `{`, shifts
      every placeholder of the rest and adds none. */
  lemma PlaceholderShift(done: string, rest: string, j: int)
    requires NoPlaceholder(done)
    requires |done| == 0 || done[|done| - 1] != '{'
    ensures PlaceholderAt(done + rest, j) <==> (j >= |done| && PlaceholderAt(rest, j - |done|))
  {
    var s := done + rest;
    if 0 <= j && j + 1 < |done| {
      assert !PlaceholderAt(done, j);
      assert s[j] == done[j] && s[j + 1] == done[j + 1];
    } else if 0 <= j && j + 1 == |done| {
      assert s[j] == done[|done| - 1];
    } else if j >= |done| && j + 1 < |s| {
      assert s[j] == rest[j - |done|] && s[j + 1] == rest[j - |done| + 1];
    }
  }

  lemma FindShift(done: string, rest: string)
    requires NoPlaceholder(done)
    requires |done| == 0 || done[|done| - 1] != '{'
    ensures Find(done + rest).None? <==> Find(rest).None?
    ensures Find(rest).Some? ==> Find(done + rest) == Some(|done| + Find(rest).value)
  {
    match Find(rest)
    case None => FindShiftNone(done, rest);
    case Some(q) => FindShiftSome(done, rest, q);
  }

  lemma FindShiftNone(done: string, rest: string)
    requires NoPlaceholder(done)
    requires |done| == 0 || done[|done| - 1] != '{'
    requires NoPlaceholder(rest)
    ensures NoPlaceholder(done + rest)
  {
    var s := done + rest;
    forall j | 0 <= j < |s| - 1 ensures !PlaceholderAt(s, j) {
      PlaceholderShift(done, rest, j);
    }
  }

  lemma FindShiftSome(done: string, rest: string, q: nat)
    requires NoPlaceholder(done)
    requires |done| == 0 || done[|done| - 1] != '{'
    requires Find(rest) == Some(q)
    ensures Find(done + rest) == Some(|done| + q)
  {
    var s := done + rest;
    PlaceholderShift(done, rest, |done| + q);
    forall j | 0 <= j < |done| + q ensures !PlaceholderAt(s, j) {
      PlaceholderShift(done, rest, j);
    }
    FirstPlaceholder(s, |done| + q);
  }

  /** A placeholder with none before it is the one `Find` reports. */
  lemma FirstPlaceholder(s: string, p: nat)
    requires PlaceholderAt(s, p)
    requires forall j :: 0 <= j < p ==> !PlaceholderAt(s, j)
    ensures Find(s) == Some(p)
  {
    assert !NoPlaceholder(s);
    var v := Find(s).value;
    assert !(v < p);
    assert !(p < v);
  }

  /** After one substitution the filled part has no placeholder and does not
      end in `{`, provided the argument is numeric text. */
  lemma FilledPart(done: string, rest: string, q: nat, a: string)
    requires NoPlaceholder(done) && (|done| == 0 || done[|done| - 1] != '{')
    requires q <= |rest| && forall j :: 0 <= j < q ==> !PlaceholderAt(rest, j)
    requires NumericText(a)
    ensures var d := done + rest[..q] + a; NoPlaceholder(d) && d[|d| - 1] != '{'
  {
    var d := done + rest[..q] + a;
    forall j | 0 <= j < |d| - 1
      ensures !PlaceholderAt(d, j)
    {
      if j + 1 < |done| {
        assert !PlaceholderAt(done, j);
        assert d[j] == done[j] && d[j + 1] == done[j + 1];
      } else if j + 1 == |done| {
        assert d[j] == done[|done| - 1];
      } else if j + 1 < |done| + q {
        assert d[j] == rest[j - |done|] && d[j + 1] == rest[j - |done| + 1];
        assert !PlaceholderAt(rest, j - |done|);
      } else {
        assert d[j + 1] == a[j + 1 - |done| - q];
      }
    }
    assert d[|d| - 1] == a[|a| - 1];
  }

  lemma {:induction false} FormatManyScanFrom(done: string, rest: string, args: seq<string>)
    requires |args| >= 1
    requires NoPlaceholder(done) && (|done| == 0 || done[|done| - 1] != '{')
    requires forall i :: 0 <= i < |args| - 1 ==> NumericText(args[i])
    ensures FormatMany(done + rest, args) == done + Scan(rest, args)
    decreases |args|
  {
    FindShift(done, rest);
    match Find(rest)
    case None =>
      assert Find(done + rest).None?;
    case Some(q) =>
      if |args| == 1 {
        LastArgument(done, rest, args[0], q);
      } else {
        var pre, post := rest[..q], rest[q + 2..];
        var d := done + pre + args[0];
        FilledPart(done, rest, q, args[0]);
        FormatManyScanFrom(d, post, args[1..]);
        FormatManyShifted(done, rest, args, q);
        ScanStep(rest, args, q);
        Regroup(done, pre, args[0], Scan(post, args[1..]));
      }
  }

  lemma LastArgument(done: string, rest: string, a: string, q: nat)
    requires Find(rest) == Some(q) && Find(done + rest) == Some(|done| + q)
    ensures FormatMany(done + rest, [a]) == done + Scan(rest, [a])
  {
    LastFormatted(done, rest, a, q);
    LastScanned(done, rest, a, q);
  }

  lemma LastFormatted(done: string, rest: string, a: string, q: nat)
    requires q + 2 <= |rest| && Find(done + rest) == Some(|done| + q)
    ensures FormatMany(done + rest, [a]) == done + rest[..q] + a + rest[q + 2..]
  {
    var s, p := done + rest, |done| + q;
    LastStep(s, a, p);
    Splice(done, rest, q, a);
    Transitive(FormatMany(s, [a]), s[..p] + a + s[p + 2..], done + rest[..q] + a + rest[q + 2..]);
  }

  lemma Transitive(x: string, y: string, z: string)
    requires x == y && y == z
    ensures x == z
  {
  }

  lemma LastScanned(done: string, rest: string, a: string, q: nat)
    requires Find(rest) == Some(q)
    ensures done + Scan(rest, [a]) == done + rest[..q] + a + rest[q + 2..]
  {
    ScanLast(rest, a, q);
    Regroup(done, rest[..q], a, rest[q + 2..]);
  }

  lemma LastStep(s: string, a: string, p: nat)
    requires Find(s) == Some(p)
    ensures FormatMany(s, [a]) == s[..p] + a + s[p + 2..]
  {
    assert FormatMany(s, [a]) == FormatOne(s, a);
  }

  lemma ScanLast(s: string, a: string, p: nat)
    requires Find(s) == Some(p)
    ensures Scan(s, [a]) == s[..p] + a + s[p + 2..]
  {
  }

  /** One substitution step of the source's reading, on a prefixed format. */
  lemma FormatManyShifted(done: string, rest: string, args: seq<string>, q: nat)
    requires |args| > 1
    requires q + 2 <= |rest| && Find(done + rest) == Some(|done| + q)
    ensures FormatMany(done + rest, args)
      == FormatMany(done + rest[..q] + args[0] + rest[q + 2..], args[1..])
  {
    var s, p := done + rest, |done| + q;
    FormatManyStep(s, args, p);
    Splice(done, rest, q, args[0]);
    SameFormat(s[..p] + args[0] + s[p + 2..], done + rest[..q] + args[0] + rest[q + 2..], args[1..]);
  }

  lemma SameFormat(f: string, g: string, args: seq<string>)
    requires |args| >= 1 && f == g
    ensures FormatMany(f, args) == FormatMany(g, args)
  {
  }

  lemma Splice(done: string, rest: string, q: nat, a: string)
    requires q + 2 <= |rest|
    ensures (done + rest)[..|done| + q] + a + (done + rest)[|done| + q + 2..]
      == done + rest[..q] + a + rest[q + 2..]
  {
    var s := done + rest;
    var p := |done| + q;
    assert s[..p] == done + rest[..q];
    assert s[p + 2..] == rest[q + 2..];
  }

  lemma Regroup(a: string, b: string, c: string, d: string)
    ensures a + (b + c + d) == a + b + c + d
  {
  }

  lemma ScanStep(s: string, args: seq<string>, p: nat)
    requires |args| > 1 && Find(s) == Some(p)
    ensures Scan(s, args) == s[..p] + args[0] + Scan(s[p + 2..], args[1..])
  {
  }

  lemma FormatManyStep(s: string, args: seq<string>, p: nat)
    requires |args| > 1 && Find(s) == Some(p)
    ensures FormatMany(s, args) == FormatMany(s[..p] + args[0] + s[p + 2..], args[1..])
  {
  }

  /** Re-formatting the substituted string, as the source does, agrees with
      the single left-to-right pass whenever every argument but the last is
      what `std::to_string` of a number yields. */
  lemma FormatManyIsScan(format: string, args: seq<string>)
    requires |args| >= 1
    requires forall i :: 0 <= i < |args| - 1 ==> NumericText(args[i])
    ensures FormatMany(format, args) == Scan(format, args)
  {
    FormatManyScanFrom("", format, args);
    assert "" + format == format;
  }

  /** Why `FormatManyIsScan` needs its numeric-text condition: an argument
      containing `{}` would itself be filled by the next argument. Every
      argument but the last passes through `std::to_string`, which never
      yields a brace, so formatting in the library never meets this case. */
  lemma InjectedPlaceholder()
    ensures FormatMany("{}-{}", ["{}", "1", "2"]) == "1-2"
    ensures Scan("{}-{}", ["{}", "1", "2"]) == "{}-1"
  {
    InjectedFormatMany();
    InjectedScan();
  }

  lemma InjectedFormatMany()
    ensures FormatMany("{}-{}", ["{}", "1", "2"]) == "1-2"
  {
    var f := "{}-{}";
    assert PlaceholderAt(f, 0);
    assert f[..0] + "{}" + f[2..] == f;
    assert FormatMany(f, ["{}", "1", "2"]) == FormatMany(f, ["1", "2"]);
    assert f[..0] + "1" + f[2..] == "1-{}";
    assert FormatMany(f, ["1", "2"]) == FormatMany("1-{}", ["2"]);
    var g := "1-{}";
    assert PlaceholderAt(g, 2) && !PlaceholderAt(g, 0) && !PlaceholderAt(g, 1);
    assert Find(g) == Some(2);
    assert g[..2] + "2" + g[4..] == "1-2";
  }

  lemma InjectedScan()
    ensures Scan("{}-{}", ["{}", "1", "2"]) == "{}-1"
  {
    var f := "{}-{}";
    assert PlaceholderAt(f, 0);
    assert f[2..] == "-{}";
    var g := "-{}";
    assert PlaceholderAt(g, 1) && !PlaceholderAt(g, 0);
    assert Find(g) == Some(1);
    assert g[..1] == "-" && g[3..] == "";
    assert Scan(g, ["1", "2"]) == "-1" + Scan("", ["2"]);
  }

  /** `WriteFormatted`: the formatted line goes to `Write`, whose answer is
      returned. */
  function WriteFormatted(w: AsyncWriter.Writer, format: string, args: seq<string>): (r: (AsyncWriter.Writer, bool))
    requires AsyncWriter.Valid(w) && |args| >= 1
    ensures AsyncWriter.Valid(r.0)
    ensures r.1 <==> (w.running && !w.stopRequested)
    ensures r.1 ==> r.0.queue == w.queue + [FormatMany(format, args)]
    ensures !r.1 ==> r.0 == w
  {
    AsyncWriter.Write(w, FormatMany(format, args))
  }

  /** `WriteMetric`: the line `name: value`. */
  function WriteMetric(w: AsyncWriter.Writer, name: string, value: string): (r: (AsyncWriter.Writer, bool))
    requires AsyncWriter.Valid(w)
    ensures AsyncWriter.Valid(r.0)
    ensures r.1 <==> (w.running && !w.stopRequested)
    ensures r.1 ==> r.0.queue == w.queue + [name + ": " + value]
    ensures !r.1 ==> r.0 == w
  {
    AsyncWriter.Write(w, name + ": " + value)
  }

  /** `WriteWithTimestamp`: the current stamp, a space, the text. */
  function WriteWithTimestamp(w: AsyncWriter.Writer, local: Timestamp.LocalTime, epochMillis: nat, text: string): (r: (AsyncWriter.Writer, bool))
    requires AsyncWriter.Valid(w)
    ensures AsyncWriter.Valid(r.0)
    ensures r.1 <==> (w.running && !w.stopRequested)
    ensures r.1 ==> r.0.queue == w.queue + [Timestamp.Render(local, epochMillis) + " " + text]
    ensures !r.1 ==> r.0 == w
  {
    AsyncWriter.Write(w, Timestamp.Render(local, epochMillis) + " " + text)
  }

  /** The line `WriteMetricWithTimestamp` writes. */
  function MetricLine(stamp: string, name: string, value: string): string {
    stamp + " " + name + ": " + value
  }

  /** `WriteMetricWithTimestamp`: `stamp name: value`. */
  function WriteMetricWithTimestamp(w: AsyncWriter.Writer, local: Timestamp.LocalTime, epochMillis: nat,
                                    name: string, value: string): (r: (AsyncWriter.Writer, bool))
    requires AsyncWriter.Valid(w)
    ensures AsyncWriter.Valid(r.0)
    ensures r.1 <==> (w.running && !w.stopRequested)
    ensures r.1 ==> r.0.queue == w.queue + [MetricLine(Timestamp.Render(local, epochMillis), name, value)]
    ensures !r.1 ==> r.0 == w
  {
    AsyncWriter.Write(w, MetricLine(Timestamp.Render(local, epochMillis), name, value))
  }

  /** A timestamped metric line starts with the 23-character stamp for a
      four-digit year, and after the following space holds `name: value`. */
  lemma MetricLineLayout(local: Timestamp.LocalTime, epochMillis: nat, name: string, value: string)
    requires Timestamp.WellFormed(local) && 1000 <= local.year < 10000
    ensures var line := MetricLine(Timestamp.Render(local, epochMillis), name, value);
      |line| >= 24 && line[..23] == Timestamp.Render(local, epochMillis) && line[23] == ' '
      && line[24..] == name + ": " + value
  {
    Timestamp.RenderLayout(local, epochMillis);
    StampedLine(Timestamp.Render(local, epochMillis), name, value);
  }

  lemma StampedLine(stamp: string, name: string, value: string)
    requires |stamp| == 23
    ensures var line := MetricLine(stamp, name, value);
      |line| >= 24 && line[..23] == stamp && line[23] == ' ' && line[24..] == name + ": " + value
  {
    var rest := " " + (name + ": " + value);
    assert MetricLine(stamp, name, value) == stamp + rest;
    Halves(stamp, rest);
    Halves(" ", name + ": " + value);
  }

  /** Writing a metric with a timestamp is writing the text `name: value`
      with a timestamp. */
  lemma MetricWithTimestampIsTimestampedText(w: AsyncWriter.Writer, local: Timestamp.LocalTime, epochMillis: nat,
                                             name: string, value: string)
    requires AsyncWriter.Valid(w)
    ensures WriteMetricWithTimestamp(w, local, epochMillis, name, value)
      == WriteWithTimestamp(w, local, epochMillis, name + ": " + value)
  {
    var stamp := Timestamp.Render(local, epochMillis);
    assert MetricLine(stamp, name, value) == stamp + " " + (name + ": " + value);
  }
}
